=== FILE: README.md ===
# bh-go-tools core, modelled in Dafny

This project models the sequential core of the Go utility library `bh-go-tools`
and proves properties of the model. It covers:

- **Keyed lock registries.** `MapMutex` and `MapRWMutex`, each in a generic copy (`bhsync/`)
  and an `interface{}`-keyed copy (`sync/`). One structural mutex guards a map from key to
  `{inner lock, reference count}`. An entry is created on first use and deleted in the same
  critical section in which its count drops to 0.
  - Each registry method is one atomic transition of an immutable `map<K, Entry>`.
  - The blocking wait for the inner lock is a separate step (`Acquire`, `AcquireWrite`,
    `AcquireRead`), enabled only when the inner lock can be granted.
  - Fatal misuse is an explicit `Fatal` outcome naming the panic. This covers the registry's
    own `panic("unreachable")`, the Go runtime's "unlock of unlocked" fatal errors, and, for
    `interface{}` keys, the panic from hashing a key whose dynamic type is not comparable.
- **PKCS #7 padding** (section 6.3 of RFC 5652): `PKCS7Padding` and `PKCS7UnPadding`.
- **The private IPv4 test** `IsPrivateIp` (section 3 of RFC 1918). It is proved equal to
  membership in the three CIDR blocks.
- **`IsUnique`**, the duplicate detector.
- **Big-integer helpers.** `FromBytes` (a sign byte, then a big-endian magnitude),
  `PositiveFromUnsignedBytes`, the `Sum`/`Product`/`Subtract` folds, `Max`/`Min`, the `Cmp`
  family and `Exp`. Go's `*big.Int` is Dafny's unbounded `int`.
- **Stream decorators.** `nullReader`, `RepeatReader`, `SkipReader`, `SkipWriter`,
  `LimitWriter`, and the `UnwrapReader`/`UnwrapWriter` loops.
  - Readers and writers are immutable values. A call returns the next state, the caller's
    buffer after the call, the count and the error.
  - The wrapped reader is a sequence-backed `Source`. It serves short reads of at most
    `chunk` bytes, then a terminal error, either alone or together with the last bytes.
  - The wrapped writer is a `Sink` with finite room. It reports an error exactly when it
    writes fewer bytes than asked.

`bhio/io.go` and `io/` contain identical copies of `nullReader.Read` and
`RepeatReader.Read`; `Readers.NullRead` and `Readers.RepeatRead` model both.
The two `MapMutex` and the two `MapRWMutex` files run the same registry algorithm.
The `interface{}`-keyed modules therefore reuse the generic registry state and add
only what differs: the unhashable-key panic. That panic leaves the structural mutex
locked in `Lock`/`RLock`/`TryLock`/`TryRLock`, which release it without `defer`.
`Unlock`/`RUnlock` release it through their `defer`.

Some behaviours of the code are stated as lemmas rather than corrected, because
nothing shows they are unintended:

- when more than 255 pad bytes are added, which needs a block size of 256 or more,
  the pad byte truncates and the round trip fails. An example is an aligned
  input with block size 256 (`Pkcs7.WideBlockBreaksRoundTrip`);
- unpadding checks only the last byte (`Pkcs7.LaxInputsAccepted`);
- a negative `SkipWriter` skip lowers the reported count
  (`Writers.NegativeSkipLowersCount`);
- `TryLock` on a keyed mutex fails whenever an entry exists, even when its inner
  mutex is momentarily free (`KeyedMutex.TryLockRefusesFreeEntry`);
- the `unreachable` branch of `TryRLock` is dead (`KeyedRWMutex.TryRLock`).

Files: `panics.dfy`, `keyed_mutex.dfy`, `any_keyed_mutex.dfy`, `keyed_rwmutex.dfy`,
`any_keyed_rwmutex.dfy`, `bytes.dfy`, `arith.dfy`, `padding.dfy`, `private_ip.dfy`,
`unique.dfy`, `bigint.dfy`, `io_base.dfy`, `readers.dfy`, `writers.dfy`, `unwrap.dfy`.

## Model

| member | source | states |
|---|---|---|
| KeyedMutex.Lock | bhsync/map_mut.go:22-36 | the caller holds at once iff the key had no entry; the count of the key rises by exactly 1; a blocked caller is counted as a waiter; other keys untouched; the entry invariant is preserved |
| KeyedMutex.Acquire | bhsync/map_mut.go:34 | enabled only while the inner mutex is free and someone waits; the waiter becomes the holder and the count stays the same |
| KeyedMutex.TryLock | bhsync/map_mut.go:38-51 | succeeds iff the key has no entry, creating a held entry of count 1; on failure the registry is unchanged, even if the inner mutex is free |
| KeyedMutex.Unlock | bhsync/map_mut.go:53-65 | absent key panics "unreachable"; a free inner mutex is a fatal error; otherwise the lock is released, the count drops by 1, and the entry is deleted exactly when it reaches 0; other keys untouched |
| KeyedMutex.RunPreservesValid | bhsync/map_mut.go:22-65 | every panic-free schedule of Lock/TryLock/Unlock/acquire steps keeps each entry's count ≥ 1 and equal to holder + waiters |
| KeyedMutex.QuiescentIsEmpty | bhsync/map_mut.go:60-64 | no leaked entries: with no holder and no waiter on any key, the registry is empty |
| KeyedMutex.LockUnlockRestores | bhsync/map_mut.go:25-64 | Lock then Unlock on a key with no entry gives back the original registry |
| KeyedMutex.TryLockUnlockRestores | bhsync/map_mut.go:38-64 | a successful TryLock then Unlock gives back the original registry |
| KeyedMutex.ContendedHandoffRestores | bhsync/map_mut.go:22-65 | two goroutines contending for a fresh key: first holds, second blocks, hand-off and both unlocks leave no entry |
| KeyedMutex.TryLockAfterLastUnlock | bhsync/map_mut.go:38-65 | TryLock fails while the key is held and succeeds right after its only holder unlocks |
| KeyedMutex.TryLockRefusesFreeEntry | bhsync/map_mut.go:38-51 | after a holder unlocks to a waiting goroutine the inner mutex is free, yet TryLock still fails |
| AnyKeyedMutex.Lock | sync/map_mut.go:22-36 | an unhashable key panics with the registry mutex left locked; otherwise holds iff no entry existed, and a holding caller's entry is locked; a blocked caller is counted as one more waiter and the lock state is untouched; exactly one reference is added |
| AnyKeyedMutex.TryLock | sync/map_mut.go:38-51 | an unhashable key panics with the registry mutex left locked; otherwise succeeds iff no entry existed, creating a locked entry of count 1; failure changes nothing; the entry invariant is preserved |
| AnyKeyedMutex.Unlock | sync/map_mut.go:53-65 | an unhashable key panics with the registry mutex released; absent key panics "unreachable"; a free inner mutex is fatal; a held key always succeeds: the inner mutex is released, waiters are kept, one reference is dropped and the entry is deleted exactly at 0 |
| AnyKeyedMutex.HashablePairRestores | sync/map_mut.go:25-64 | with a hashable key with no entry, Lock then Unlock, and a successful TryLock then Unlock, both restore the registry |
| KeyedRWMutex.Lock | bhsync/map_rwmut.go:27-42 | a new entry is write-held with count 1; an existing one gains one reference and one blocked writer, nothing else changes |
| KeyedRWMutex.RLock | bhsync/map_rwmut.go:44-59 | a new entry is held by one reader with count 1; an existing one gains one reference and one blocked reader |
| KeyedRWMutex.AcquireWrite | bhsync/map_rwmut.go:40 | a blocked writer may take the lock only with no writer and no readers; the count is unchanged |
| KeyedRWMutex.AcquireRead | bhsync/map_rwmut.go:57 | a blocked reader may join only while no writer holds; the count is unchanged |
| KeyedRWMutex.TryLock | bhsync/map_rwmut.go:61-74 | succeeds iff the key has no entry; otherwise the registry is unchanged |
| KeyedRWMutex.TryRLock | bhsync/map_rwmut.go:76-98 | never panics: the "unreachable" branch after a fresh try-read is dead; succeeds iff there is no entry or no writer; success adds exactly one reader and one reference; failure changes nothing |
| KeyedRWMutex.Unlock | bhsync/map_rwmut.go:100-113 | absent key panics; no writer is fatal; otherwise the writer leaves, the count drops by 1, and the entry is deleted exactly at 0 |
| KeyedRWMutex.RUnlock | bhsync/map_rwmut.go:115-128 | absent key panics; no reader is fatal; otherwise one reader leaves, the count drops by 1, and the entry is deleted exactly at 0 |
| KeyedRWMutex.RunPreservesValid | bhsync/map_rwmut.go:27-128 | every panic-free schedule keeps count = writer + readers + waiters ≥ 1 and never a writer together with readers |
| KeyedRWMutex.PairsRestore | bhsync/map_rwmut.go:30-127 | Lock/Unlock, RLock/RUnlock, TryLock/Unlock and TryRLock/RUnlock on a key with no entry leave no entry |
| KeyedRWMutex.ReadersShare | bhsync/map_rwmut.go:91-97 | while a reader holds a key, TryRLock succeeds, and the second reader's RUnlock restores the registry |
| KeyedRWMutex.WriterExcludesTries | bhsync/map_rwmut.go:61-97 | while a writer holds a key, TryLock and TryRLock fail and change nothing |
| KeyedRWMutex.QuiescentIsEmpty | bhsync/map_rwmut.go:108-127 | with no holder or waiter anywhere the registry is empty |
| AnyKeyedRWMutex.Lock | sync/map_rwmut.go:22-37 | unhashable key panics with the registry mutex held; otherwise a new entry is write-held, and on an existing entry the caller becomes exactly one more blocked writer with nothing else changed; one reference is added |
| AnyKeyedRWMutex.RLock | sync/map_rwmut.go:39-54 | unhashable key panics with the registry mutex held; otherwise a new entry has one reader, and on an existing entry the caller becomes exactly one more blocked reader with nothing else changed; one reference is added |
| AnyKeyedRWMutex.TryLock | sync/map_rwmut.go:56-69 | unhashable key panics with the registry mutex held; otherwise succeeds iff no entry, creating a write-held entry of count 1; failure changes nothing; the entry invariant is preserved |
| AnyKeyedRWMutex.TryRLock | sync/map_rwmut.go:71-93 | unhashable key panics with the registry mutex held; otherwise succeeds iff no entry or no writer; success adds exactly one reader and one reference and leaves the rest of an existing entry unchanged; failure changes nothing; the entry invariant is preserved |
| AnyKeyedRWMutex.Unlock | sync/map_rwmut.go:95-108 | unhashable key panics with the registry mutex released; absent key and missing writer are fatal; a write-held key always succeeds: the writer leaves, nothing else in the entry changes, one reference is dropped, and the entry is deleted exactly at 0 |
| AnyKeyedRWMutex.RUnlock | sync/map_rwmut.go:110-123 | unhashable key panics with the registry mutex released; absent key and missing reader are fatal; a read-held key always succeeds: one reader leaves, nothing else in the entry changes, one reference is dropped, and the entry is deleted exactly at 0 |
| AnyKeyedRWMutex.HashablePairsRestore | sync/map_rwmut.go:25-122 | with a hashable key with no entry, Lock/Unlock, RLock/RUnlock, TryLock/Unlock and TryRLock/RUnlock each succeed and restore the registry |
| Pkcs7.Pad | bhcrypt/Padding.go:8-12 | appends between 1 and blockSize bytes, each equal to byte(count); the input is a prefix; the length becomes a multiple of blockSize; an aligned input gains a full block |
| Pkcs7.FillsBlock | bhcrypt/Padding.go:9 | n plus blockSize − n mod blockSize is a multiple of blockSize |
| Pkcs7.Unpad | bhcrypt/Padding.go:14-22 | fails with "illegal PKCS7Padding data" iff the last byte exceeds the length; otherwise returns a prefix shorter by exactly the last byte's value |
| Pkcs7.RoundTrip | bhcrypt/Padding.go:8-22 | unpadding a padded input returns it unchanged for every block size 1..255 |
| Pkcs7.WideBlockBreaksRoundTrip | bhcrypt/Padding.go:9-21 | whenever more than 255 pad bytes are added (block size above 255 and at least 256 bytes missing to fill the block), the pad byte truncates and unpadding does not return the input |
| Pkcs7.WideBlockExample | bhcrypt/Padding.go:9-21 | an empty input padded to block size 256 is 256 zero bytes, and unpadding it returns all 256 of them |
| Pkcs7.OnlyLastByteDecides | bhcrypt/Padding.go:15-21 | inputs of equal length with the same last byte unpad alike |
| Pkcs7.LaxInputsAccepted | bhcrypt/Padding.go:16-21 | a last byte of 0 returns the input unchanged; inner padding bytes are never checked |
| PrivateIp.To4 | net/net.go:24 | an address has an IPv4 form iff it is 4 bytes or an IPv4-mapped 16-byte address, and the form is its last 4 bytes |
| PrivateIp.IsPrivateIp | net/net.go:23-37 | only addresses with an IPv4 form can be private; 10.x.x.x and 192.168.x.x are |
| PrivateIp.MatchesRfc1918 | net/net.go:23-37 | private iff the address has an IPv4 form inside 10.0.0.0/8, 172.16.0.0/12 or 192.168.0.0/16 |
| PrivateIp.FirstTwoOctetsDecide | net/net.go:25-31 | addresses agreeing on the first two octets get the same answer |
| PrivateIp.Boundaries | net/net.go:26-33 | 172.15 and 172.32 are not private, 172.16 and 172.31 are; 192.169 and 11.0 are not |
| PrivateIp.MappedAndMalformed | net/net.go:24-36 | an IPv4-mapped IPv6 address is judged by its IPv4 part; a 3-byte address or a non-mapped 16-byte one is not private |
| Unique.IsUnique | bhset/set.go:7-18 | true iff the keys are pairwise distinct; zero or one key gives true |
| Unique.FirstRepeat | bhset/set.go:9-15 | the scan stops at the first key already seen, and the prefix before it is duplicate-free |
| Unique.DistinctIffSetSize | bhset/set.go:7-18 | keys are distinct iff the set of keys is as large as the list |
| Unique.DistinctIffNoRepeat | bhset/set.go:9-17 | keys are distinct iff the scan reaches the end |
| BigInt.PositiveFromUnsignedBytes | bhmath/bigint/bigint.go:29-32 | a non-negative value below 256 to the power of the byte count |
| BigInt.FromBytes | bhmath/bigint/bigint.go:176-197 | empty is 0; a sign byte other than 0 or 1 is an error with value 0; sign 0 gives non-negative, sign 1 non-positive values, bounded by the magnitude length |
| BigInt.FromBytesRoundTrip | bhmath/bigint/bigint.go:176-197 | decoding the sign-and-magnitude encoding of any integer gives it back without error |
| BigInt.SignByteMeaning | bhmath/bigint/bigint.go:182-196 | FromBytes of 0 followed by b equals PositiveFromUnsignedBytes(b); 1 followed by b gives its negation |
| BigInt.LeadingZeros | bhmath/bigint/bigint.go:29-32 | a leading zero byte does not change the magnitude |
| BigInt.Sum | bhmath/bigint/bigint.go:77-83 | the left-to-right fold from 0 equals the reference sum; empty gives 0 |
| BigInt.Product | bhmath/bigint/bigint.go:53-59 | the left-to-right fold from 1 equals the reference product; empty gives 1 |
| BigInt.Subtract | bhmath/bigint/bigint.go:85-91 | equals the first argument minus the sum of the rest; with no rest it is the first argument |
| BigInt.SumOfConcat | bhmath/bigint/bigint.go:77-83 | sums split over concatenation |
| BigInt.ProductOfZero | bhmath/bigint/bigint.go:53-59 | any zero factor makes the product 0 |
| BigInt.Cmp | bhmath/bigint/bigint.go:148-150 | −1, 0 or 1 exactly as a < b, a = b, a > b |
| BigInt.Eq | bhmath/bigint/bigint.go:152-154 | true iff a = b |
| BigInt.Ne | bhmath/bigint/bigint.go:156-158 | true iff a ≠ b |
| BigInt.Gt | bhmath/bigint/bigint.go:160-162 | true iff a > b |
| BigInt.Lt | bhmath/bigint/bigint.go:164-166 | true iff a < b |
| BigInt.Ge | bhmath/bigint/bigint.go:168-170 | true iff a ≥ b |
| BigInt.Le | bhmath/bigint/bigint.go:172-174 | true iff a ≤ b |
| BigInt.Max | bhmath/bigint/bigint.go:120-132 | returns one of its arguments, at least as large as both |
| BigInt.Min | bhmath/bigint/bigint.go:134-146 | returns one of its arguments, at most as large as both |
| BigInt.MaxMinPartition | bhmath/bigint/bigint.go:120-146 | Max + Min = x + y; Max(x, y) = −Min(−x, −y); both are symmetric in value |
| BigInt.Exp | bhmath/bigint/bigint.go:101-104 | a to the power e for e > 0 and 1 for e ≤ 0, by square-and-multiply |
| Readers.NullRead | io/nullreader.go:7-12 | every byte of the buffer becomes 0, the count is its length, no error; the outcome depends on the length alone |
| Readers.NewRepeatReader | bhio/io.go:26-30 | a new reader cycles through exactly the given data, starting at its first byte |
| Readers.RepeatRead | bhio/io.go:32-41 | byte j of the buffer is data[(i0 + j) mod len]; the position stays in range and ends at (i0 + len(p)) mod len; count len(p), no error; an empty read changes nothing |
| Readers.CycleSplits | io/reapeatreader.go:16-25 | reads of a then b bytes produce the same bytes as one read of a + b bytes |
| Readers.Discard | bhio/io.go:109-126 | the skip loop either discards exactly the pending bytes or stops with the inner error, recording how many were still pending |
| Readers.SkipRead | bhio/io.go:104-129 | an empty buffer returns (0, nil) and consumes nothing; a failing skip returns (0, err) and keeps the rest of the skip; otherwise exactly the pending bytes are dropped and the call is the inner read of what follows |
| Writers.SkipWrite | bhio/io.go:165-183 | a skip covering p reports len(p) without writing; otherwise the inner writer receives exactly p past the skip, and the outcome is that inner write's: an inner failure that wrote nothing gives (0, err) and keeps the skip, any other result reports the inner count plus skipN and clears the skip; so a successful write with a non-negative skip delivers all of p past the skip and reports len(p), and a negative skip lowers the count to len(p) + skipN |
| Writers.SkipWritesCompose | bhio/io.go:165-183 | with enough room, two writes deliver the concatenation minus the skipped prefix |
| Writers.NegativeSkipLowersCount | bhio/io.go:166-182 | a negative skip swallows nothing but lowers the reported count, here to −2 |
| Writers.NewLimitWriter | bhio/io.go:192-202 | a missing end error defaults to io.ErrShortWrite |
| Writers.LimitWrite | bhio/io.go:210-227 | with 0 remaining returns (0, endSymbol) without writing; otherwise forwards min(len(p), remaining) bytes, of which the inner writer takes what its room allows; the remainder drops by exactly what was written; using it up without inner error reports endSymbol; a nil error means all of p was forwarded |
| Writers.LimitNeverExceeded | bhio/io.go:210-227 | across a sequence of writes run up to the first error, forwarded bytes plus the remaining allowance equal the limit |
| Unwrap.UnwrapReader | bhio/io.go:48-57 | peels layers until the value is not a wrapper, reaching the plain reader at the bottom after one step per layer |
| Unwrap.UnwrapWriter | bhio/io.go:142-151 | peels layers until the value is not a wrapper, reaching the plain writer at the bottom |

## Left out

- Real blocking and mutual exclusion. The registries model only their bookkeeping. A blocked goroutine is a waiter count, and its wakeup is an acquire step the schedule may take once the inner lock can be granted.
- The reference count covers goroutines blocked in `Lock`/`RLock` as well as the holders, because `Lock` increments it before blocking (bhsync/map_mut.go:32-34). `Unlock` on a present but unlocked key is the Go runtime's fatal error, not the registry's own panic (bhsync/map_mut.go:60).
- Goroutine identity. An `Unlock` by a goroutine that does not hold the lock goes undetected when someone else holds it. The model behaves the same way.
- KeyedRWMutex.TryRLock: the inner `sync.RWMutex.TryRLock` is modelled as failing only while a writer holds the lock. Go's also fails while a writer is blocked in `Lock`, because of its writer preference. For the same reason, `AcquireRead` may be enabled where Go would keep a reader waiting.
- KeyedRWMutex.AcquireRead: same writer-preference simplification as above. Its enabling predicate `CanAcquireRead` lets a blocked reader in whenever no writer holds the lock, even while a writer is waiting.
- AnyKeyedRWMutex.TryRLock: same writer-preference simplification, since it delegates to `KeyedRWMutex.TryRLock`.
- The ordered tree map behind the generic `MapRWMutex`. Only key equality affects its behaviour, so it is a Dafny `map`.
- The goroutine after an unhashable-key panic: the model records only whether the registry mutex is still held. That every later registry call then blocks forever is not modelled.
- `bhsync/chanmut/`, `mergecaller/`, `bhtime/sleep_que.go` and `bhrunner/`. They depend on goroutines, channels, `select` races or timers. This also covers the interruptible lock and the call coalescer.
- `BufferWriter` (its flush runs on a goroutine) and `SpeedReader` (wall-clock sleeps with floating point). They appear only as layers for `UnwrapWriter`/`UnwrapReader`.
- `bhmap/map.go` (a wrapper over an external map library), `bhmath/bigfloat/` (floating point), `fs/`, `format/`, `bhformat/` (filesystem, process, template and JSON libraries), and `GetPrivateIp` (enumerates OS network interfaces).
- The other big-integer helpers (`NewInt`, `NewIntUnsigned`, `NewFromGo`, `Zero`, `FromString`, `MustFromString`, `Mul`, `Div`, `Mod`, `Add`, `Sub`, `Neg`, `Lsh`, `Rsh`, `BitLen`). Each is a single `math/big` call. `Add`, `Sub` and `Mul` appear as the operators of the folds.
- Result aliasing. `Max` and `Min` return one of their `*big.Int` arguments itself, and so does `Subtract` called with no further arguments, which returns `num1` (bhmath/bigint/bigint.go:86, 90). Mutating that result mutates the caller's argument. The model returns the value, so aliasing of the result with an argument is not modelled.
- In-place buffers. Reads return the buffer's new contents instead of writing into the caller's slice. `PKCS7Padding`'s `append` may write into the caller's backing array, and this is not modelled.
- `net.IP.To4` comes from Go's standard library, not the repository. `PrivateIp.To4` models its documented behaviour.
- Arbitrary inner streams. The inner reader and writer are the concrete `Source` and `Sink`. A Go reader that keeps returning `(0, nil)` would make the `SkipReader` skip loop spin forever. The `Source` always makes progress or fails.
- 64-bit width of the `int64` offsets and limits. Overflow, and the `int(ir.off)` conversion on 32-bit platforms, are not modelled.
- Preconditions standing for panics in the Go code. `Pkcs7.Pad` requires a positive block size: 0 divides by zero and a negative size asks `bytes.Repeat` for a negative count. `Pkcs7.Unpad` requires non-empty input, because it indexes the last byte. `Writers.LimitWrite` requires a non-negative limit, because a negative one is used as a slice bound. `Readers.RepeatRead` requires data whenever the buffer is non-empty, because it indexes the data.
- Key equality is assumed reflexive and panic-free in every registry and in `IsUnique`, because Dafny's `map` and `set` equality is both. This covers `KeyedMutex`, `KeyedRWMutex`, the `Hashable` keys of `AnyKeyedMutex` and `AnyKeyedRWMutex`, and `Unique`.
  - In Go a `float64` NaN is never equal to itself. `Lock(NaN)` on a `MapMutex[float64]` would then always insert a fresh held entry (bhsync/map_mut.go:24-30), and `Unlock(NaN)` would always panic "unreachable" (bhsync/map_mut.go:56-58).
  - The same holds for a boxed `float64` NaN in the `interface{}`-keyed `MapMutex` and `MapRWMutex` (sync/map_mut.go:24, sync/map_rwmut.go:24). Such a key is hashable but never finds its own entry.
  - `IsUnique(NaN, NaN)` would return true (bhset/set.go:10).
  - `MapMutex[T comparable]` (bhsync/map_mut.go:10) may be instantiated with an interface type, and its generic copy can then hit the unhashable-key panic too. The model raises that panic only in the `interface{}`-keyed modules. `MapRWMutex[T cmp.Ordered]` (bhsync/map_rwmut.go:15) cannot take an interface type. Its tree map orders keys by comparison, which is assumed to be a total order.
- Arbitrary wrappers in `UnwrapReader`/`UnwrapWriter`. Go peels any value implementing `WrapReader`/`WrapWriter` (bhio/io.go:50, 144), including wrappers defined by callers. A wrapper whose unwrap returns itself would make those loops run forever. `Unwrap.ReaderStack` and `Unwrap.WriterStack` list only the package's own decorators, which are finite, so the modelled loops always terminate.

=== FILE: any_keyed_mutex.dfy ===
/** The `interface{}`-keyed `MapMutex`.

    It runs the same registry algorithm as the generic `MapMutex[T]`, so its
    state is a `KeyedMutex.Registry`. The difference is the key: a value of
    static type `interface{}` may have a dynamic type Go cannot hash (a slice,
    a map, a function), and indexing the map with it panics inside the
    registry's critical section. `Lock` and `TryLock` have no deferred unlock,
    so that panic leaves the structural mutex locked; `Unlock` releases it
    through its `defer`. */
module AnyKeyedMutex {
  import opened Panics
  import opened KeyedMutex

  /** A key of static type `interface{}`. */
  datatype AnyKey<K> = Hashable(key: K) | Unhashable

  function Lock<K>(m: Registry<K>, k: AnyKey<K>): (r: Outcome<(Registry<K>, Progress)>)
    ensures k.Unhashable? ==> r == Fatal(UnhashableKey(true))
    ensures k.Hashable? ==> r.Ok?
    ensures r.Ok? ==> (r.value.1 == Holding <==> k.key !in m)
    ensures r.Ok? && r.value.1 == Holding ==> k.key in r.value.0 && r.value.0[k.key].locked
    ensures r.Ok? && r.value.1 == Blocked ==>
      && k.key in m && k.key in r.value.0
      && r.value.0[k.key].locked == m[k.key].locked && r.value.0[k.key].waiters == m[k.key].waiters + 1
    ensures r.Ok? ==> Refs(r.value.0, k.key) == Refs(m, k.key) + 1
    ensures r.Ok? ==> OthersUnchanged(m, r.value.0, k.key)
    ensures r.Ok? && Valid(m) ==> Valid(r.value.0)
  {
    match k
    case Unhashable => Fatal(UnhashableKey(true))
    case Hashable(key) => Ok(KeyedMutex.Lock(m, key))
  }

  function TryLock<K>(m: Registry<K>, k: AnyKey<K>): (r: Outcome<(Registry<K>, bool)>)
    ensures k.Unhashable? ==> r == Fatal(UnhashableKey(true))
    ensures k.Hashable? ==> r.Ok?
    ensures r.Ok? ==> (r.value.1 <==> k.key !in m)
    ensures r.Ok? && !r.value.1 ==> r.value.0 == m
    ensures r.Ok? && r.value.1 ==> Refs(r.value.0, k.key) == 1 && r.value.0[k.key].locked
    ensures r.Ok? ==> OthersUnchanged(m, r.value.0, k.key)
    ensures r.Ok? && Valid(m) ==> Valid(r.value.0)
  {
    match k
    case Unhashable => Fatal(UnhashableKey(true))
    case Hashable(key) => Ok(KeyedMutex.TryLock(m, key))
  }

  function Unlock<K>(m: Registry<K>, k: AnyKey<K>): (r: Outcome<Registry<K>>)
    ensures k.Unhashable? ==> r == Fatal(UnhashableKey(false))
    ensures k.Hashable? && k.key !in m ==> r == Fatal(Unreachable)
    ensures k.Hashable? && k.key in m && !m[k.key].locked ==> r == Fatal(UnlockOfUnlocked)
    ensures k.Hashable? && k.key in m && m[k.key].locked ==> r.Ok?
    ensures r.Ok? && k.key in r.value ==> !r.value[k.key].locked && r.value[k.key].waiters == m[k.key].waiters
    ensures r.Ok? ==> k.Hashable? && Refs(r.value, k.key) == Refs(m, k.key) - 1
    ensures r.Ok? ==> (k.key in r.value <==> m[k.key].refs != 1)
    ensures r.Ok? ==> OthersUnchanged(m, r.value, k.key)
    ensures r.Ok? && Valid(m) ==> Valid(r.value)
  {
    match k
    case Unhashable => Fatal(UnhashableKey(false))
    case Hashable(key) => KeyedMutex.Unlock(m, key)
  }

  /** With a hashable key the `interface{}`-keyed registry behaves exactly as
      the generic one: a `Lock`/`Unlock` or `TryLock`/`Unlock` pair on a key
      with no entry leaves no entry behind. */
  lemma HashablePairRestores<K>(m: Registry<K>, key: K)
    requires key !in m
    ensures Lock(m, Hashable(key)).Ok?
    ensures Unlock(Lock(m, Hashable(key)).value.0, Hashable(key)) == Ok(m)
    ensures TryLock(m, Hashable(key)).Ok? && TryLock(m, Hashable(key)).value.1
    ensures Unlock(TryLock(m, Hashable(key)).value.0, Hashable(key)) == Ok(m)
  {
    KeyedMutex.LockUnlockRestores(m, key);
    KeyedMutex.TryLockUnlockRestores(m, key);
  }
}

=== FILE: any_keyed_rwmutex.dfy ===
/** The `interface{}`-keyed `MapRWMutex`.

    Its registry algorithm is the generic `MapRWMutex[T]`'s, so its state is a
    `KeyedRWMutex.Registry`. A key whose dynamic type Go cannot hash panics
    when the map is indexed: inside `Lock`, `RLock`, `TryLock` and `TryRLock`
    that panic leaves the structural mutex locked, since they release it
    without `defer`; `Unlock` and `RUnlock` release it through their `defer`. */
module AnyKeyedRWMutex {
  import opened Panics
  import opened KeyedRWMutex

  /** A key of static type `interface{}`. */
  datatype AnyKey<K> = Hashable(key: K) | Unhashable

  function Lock<K>(m: Registry<K>, k: AnyKey<K>): (r: Outcome<(Registry<K>, Progress)>)
    ensures k.Unhashable? ==> r == Fatal(UnhashableKey(true))
    ensures k.Hashable? ==> r.Ok?
    ensures r.Ok? ==> (r.value.1 == Holding <==> k.key !in m)
    ensures r.Ok? && r.value.1 == Holding ==> k.key in r.value.0 && r.value.0[k.key].writer
    ensures r.Ok? && r.value.1 == Blocked ==>
      && k.key in m && k.key in r.value.0
      && r.value.0[k.key].(writersWaiting := m[k.key].writersWaiting, refs := m[k.key].refs) == m[k.key]
      && r.value.0[k.key].writersWaiting == m[k.key].writersWaiting + 1
    ensures r.Ok? ==> Refs(r.value.0, k.key) == Refs(m, k.key) + 1
    ensures r.Ok? ==> OthersUnchanged(m, r.value.0, k.key)
    ensures r.Ok? && Valid(m) ==> Valid(r.value.0)
  {
    match k
    case Unhashable => Fatal(UnhashableKey(true))
    case Hashable(key) => Ok(KeyedRWMutex.Lock(m, key))
  }

  function RLock<K>(m: Registry<K>, k: AnyKey<K>): (r: Outcome<(Registry<K>, Progress)>)
    ensures k.Unhashable? ==> r == Fatal(UnhashableKey(true))
    ensures k.Hashable? ==> r.Ok?
    ensures r.Ok? ==> (r.value.1 == Holding <==> k.key !in m)
    ensures r.Ok? && r.value.1 == Holding ==> k.key in r.value.0 && r.value.0[k.key].readers == 1
    ensures r.Ok? && r.value.1 == Blocked ==>
      && k.key in m && k.key in r.value.0
      && r.value.0[k.key].(readersWaiting := m[k.key].readersWaiting, refs := m[k.key].refs) == m[k.key]
      && r.value.0[k.key].readersWaiting == m[k.key].readersWaiting + 1
    ensures r.Ok? ==> Refs(r.value.0, k.key) == Refs(m, k.key) + 1
    ensures r.Ok? ==> OthersUnchanged(m, r.value.0, k.key)
    ensures r.Ok? && Valid(m) ==> Valid(r.value.0)
  {
    match k
    case Unhashable => Fatal(UnhashableKey(true))
    case Hashable(key) => Ok(KeyedRWMutex.RLock(m, key))
  }

  function TryLock<K>(m: Registry<K>, k: AnyKey<K>): (r: Outcome<(Registry<K>, bool)>)
    ensures k.Unhashable? ==> r == Fatal(UnhashableKey(true))
    ensures k.Hashable? ==> r.Ok?
    ensures r.Ok? ==> (r.value.1 <==> k.key !in m)
    ensures r.Ok? && !r.value.1 ==> r.value.0 == m
    ensures r.Ok? && r.value.1 ==> Refs(r.value.0, k.key) == 1 && r.value.0[k.key].writer
    ensures r.Ok? ==> OthersUnchanged(m, r.value.0, k.key)
    ensures r.Ok? && Valid(m) ==> Valid(r.value.0)
  {
    match k
    case Unhashable => Fatal(UnhashableKey(true))
    case Hashable(key) => Ok(KeyedRWMutex.TryLock(m, key))
  }

  function TryRLock<K>(m: Registry<K>, k: AnyKey<K>): (r: Outcome<(Registry<K>, bool)>)
    ensures k.Unhashable? ==> r == Fatal(UnhashableKey(true))
    ensures k.Hashable? ==> r.Ok?
    ensures r.Ok? ==> (r.value.1 <==> k.key !in m || !m[k.key].writer)
    ensures r.Ok? && !r.value.1 ==> r.value.0 == m
    ensures r.Ok? && r.value.1 ==> Refs(r.value.0, k.key) == Refs(m, k.key) + 1
    ensures r.Ok? && r.value.1 ==> k.key in r.value.0 && r.value.0[k.key].readers == (if k.key in m then m[k.key].readers else 0) + 1
    ensures r.Ok? && r.value.1 && k.key in m ==>
      r.value.0[k.key].(readers := m[k.key].readers, refs := m[k.key].refs) == m[k.key]
    ensures r.Ok? ==> OthersUnchanged(m, r.value.0, k.key)
    ensures r.Ok? && Valid(m) ==> Valid(r.value.0)
  {
    match k
    case Unhashable => Fatal(UnhashableKey(true))
    case Hashable(key) => KeyedRWMutex.TryRLock(m, key)
  }

  function Unlock<K>(m: Registry<K>, k: AnyKey<K>): (r: Outcome<Registry<K>>)
    ensures k.Unhashable? ==> r == Fatal(UnhashableKey(false))
    ensures k.Hashable? && k.key !in m ==> r == Fatal(Unreachable)
    ensures k.Hashable? && k.key in m && !m[k.key].writer ==> r == Fatal(UnlockOfUnlocked)
    ensures k.Hashable? && k.key in m && m[k.key].writer ==> r.Ok?
    ensures r.Ok? && k.key in r.value ==> r.value[k.key].(writer := true, refs := m[k.key].refs) == m[k.key]
    ensures r.Ok? && k.key in r.value ==> !r.value[k.key].writer
    ensures r.Ok? ==> k.Hashable? && Refs(r.value, k.key) == Refs(m, k.key) - 1
    ensures r.Ok? ==> (k.key in r.value <==> m[k.key].refs != 1)
    ensures r.Ok? ==> OthersUnchanged(m, r.value, k.key)
    ensures r.Ok? && Valid(m) ==> Valid(r.value)
  {
    match k
    case Unhashable => Fatal(UnhashableKey(false))
    case Hashable(key) => KeyedRWMutex.Unlock(m, key)
  }

  function RUnlock<K>(m: Registry<K>, k: AnyKey<K>): (r: Outcome<Registry<K>>)
    ensures k.Unhashable? ==> r == Fatal(UnhashableKey(false))
    ensures k.Hashable? && k.key !in m ==> r == Fatal(Unreachable)
    ensures k.Hashable? && k.key in m && m[k.key].readers == 0 ==> r == Fatal(RUnlockOfUnlocked)
    ensures k.Hashable? && k.key in m && m[k.key].readers > 0 ==> r.Ok?
    ensures r.Ok? && k.key in r.value ==> r.value[k.key].(readers := m[k.key].readers, refs := m[k.key].refs) == m[k.key]
    ensures r.Ok? && k.key in r.value ==> r.value[k.key].readers == m[k.key].readers - 1
    ensures r.Ok? ==> k.Hashable? && Refs(r.value, k.key) == Refs(m, k.key) - 1
    ensures r.Ok? ==> (k.key in r.value <==> m[k.key].refs != 1)
    ensures r.Ok? ==> OthersUnchanged(m, r.value, k.key)
    ensures r.Ok? && Valid(m) ==> Valid(r.value)
  {
    match k
    case Unhashable => Fatal(UnhashableKey(false))
    case Hashable(key) => KeyedRWMutex.RUnlock(m, key)
  }

  /** Read and write pairs, blocking or trying, started on a hashable key
      with no entry leave no entry behind. */
  lemma HashablePairsRestore<K>(m: Registry<K>, key: K)
    requires key !in m
    ensures Unlock(Lock(m, Hashable(key)).value.0, Hashable(key)) == Ok(m)
    ensures RUnlock(RLock(m, Hashable(key)).value.0, Hashable(key)) == Ok(m)
    ensures TryLock(m, Hashable(key)).value.1
    ensures Unlock(TryLock(m, Hashable(key)).value.0, Hashable(key)) == Ok(m)
    ensures TryRLock(m, Hashable(key)).value.1
    ensures RUnlock(TryRLock(m, Hashable(key)).value.0, Hashable(key)) == Ok(m)
  {
    KeyedRWMutex.PairsRestore(m, key);
  }
}

=== FILE: arith.dfy ===
/** Facts about Euclidean division used by the byte and offset arithmetic,
    and the power function shared by the byte and address encodings. */
module Arith {

  /** Quotient and remainder are determined by any decomposition `q * d + r`
      with the remainder in range. */
  lemma DivModOf(q: int, r: int, d: int)
    requires 0 < d && 0 <= r < d
    ensures (q * d + r) / d == q
    ensures (q * d + r) % d == r
  {
    var x := q * d + r;
    var t := x / d - q;
    assert d * t == r - x % d;
  }

  /** Adding a multiple of `d` does not change the remainder. */
  lemma ModShift(q: int, y: int, d: int)
    requires 0 < d
    ensures (q * d + y) % d == y % d
  {
    DivModOf(q + y / d, y % d, d);
    assert q * d + y == (q + y / d) * d + y % d;
  }

  /** Reducing the left operand first does not change a sum's remainder. */
  lemma ModAddLeft(x: int, j: int, d: int)
    requires 0 < d
    ensures (x % d + j) % d == (x + j) % d
  {
    ModShift(x / d, x % d + j, d);
    assert x + j == (x / d) * d + (x % d + j);
  }

  /** The remainder of a successor: one more, wrapping to 0 at `d`. */
  lemma ModSucc(x: int, d: int)
    requires 0 < d
    ensures (x + 1) % d == (if x % d + 1 == d then 0 else x % d + 1)
  {
    ModAddLeft(x, 1, d);
    if x % d + 1 == d {
      DivModOf(1, 0, d);
    } else {
      DivModOf(0, x % d + 1, d);
    }
  }

  /** Reference power by repeated multiplication. */
  function Pow(a: int, n: nat): (r: int)
    ensures a >= 1 ==> r >= 1
    decreases n
  {
    if n == 0 then 1 else a * Pow(a, n - 1)
  }

  lemma {:induction false} PowAdd(a: int, m: nat, n: nat)
    ensures Pow(a, m + n) == Pow(a, m) * Pow(a, n)
    decreases m
  {
    if m > 0 {
      PowAdd(a, m - 1, n);
      calc {
        Pow(a, m + n);
        a * Pow(a, m - 1 + n);
        a * (Pow(a, m - 1) * Pow(a, n));
        (a * Pow(a, m - 1)) * Pow(a, n);
      }
    }
  }

  lemma {:induction false} PowSquare(a: int, n: nat)
    ensures Pow(a * a, n) == Pow(a, 2 * n)
    decreases n
  {
    if n > 0 {
      PowSquare(a, n - 1);
      PowAdd(a, 2, 2 * (n - 1));
      assert Pow(a, 2) == a * a;
    }
  }
}

=== FILE: bigint.dfy ===
/** The arbitrary-precision integer helpers. Go's `*big.Int` values are
    modelled as Dafny's unbounded `int`. The helpers allocate fresh results
    except `Max`/`Min`, which return one of their arguments, and `Subtract`
    with no further arguments, which returns `num1` itself; that aliasing is
    not observable in the model. */
module BigInt {
  import opened Bytes
  import opened Arith

  // ---------------------------------------------------------------- bytes

  /** `big.Int.SetBytes`: the bytes as a big-endian unsigned number. */
  function BigEndian(b: seq<byte>): nat
    decreases |b|
  {
    if |b| == 0 then 0 else BigEndian(b[..|b| - 1]) * 256 + b[|b| - 1]
  }

  /** `PositiveFromUnsignedBytes`: the non-negative number the bytes spell,
      which fits in as many bytes as were given. */
  function PositiveFromUnsignedBytes(b: seq<byte>): (r: int)
    ensures 0 <= r < Pow(256, |b|)
  {
    BigEndianBound(b);
    BigEndian(b)
  }

  lemma {:induction false} BigEndianBound(b: seq<byte>)
    ensures BigEndian(b) < Pow(256, |b|)
    decreases |b|
  {
    if |b| > 0 {
      BigEndianBound(b[..|b| - 1]);
    }
  }

  /** The result of `FromBytes`: a value, and the offending first byte when
      Go's `FromBytes` returns an error (its value is then 0). */
  datatype Decoded = Decoded(value: int, badPrefix: Option<byte>)

  /** `FromBytes`: empty means 0; otherwise a sign byte (0 for non-negative,
      1 for negative) followed by the big-endian magnitude. Any other sign
      byte is an error. */
  function FromBytes(buf: seq<byte>): (r: Decoded)
    ensures |buf| == 0 ==> r == Decoded(0, None)
    ensures r.badPrefix.Some? <==> |buf| > 0 && buf[0] != 0 && buf[0] != 1
    ensures r.badPrefix.Some? ==> r.value == 0 && r.badPrefix.value == buf[0]
    ensures |buf| > 0 && buf[0] == 0 ==> r.value >= 0
    ensures |buf| > 0 && buf[0] == 1 ==> r.value <= 0
    ensures |buf| > 0 && r.badPrefix.None? ==> r.value + Pow(256, |buf| - 1) > 0 && r.value < Pow(256, |buf| - 1)
  {
    if |buf| == 0 then Decoded(0, None)
    else if buf[0] != 0 && buf[0] != 1 then Decoded(0, Some(buf[0]))
    else
      var i := PositiveFromUnsignedBytes(buf[1..]);
      if buf[0] == 1 then Decoded(-i, None) else Decoded(i, None)
  }

  /** `big.Int.Bytes`: the shortest big-endian spelling of a magnitude. */
  function Magnitude(n: nat): (r: seq<byte>)
    ensures n == 0 <==> |r| == 0
    ensures |r| > 0 ==> r[0] != 0
    decreases n
  {
    if n == 0 then [] else Magnitude(n / 256) + [n % 256]
  }

  /** The encoding `FromBytes` reads: nothing for zero, else sign byte then magnitude. */
  function ToBytes(x: int): seq<byte> {
    if x == 0 then []
    else if x < 0 then [1] + Magnitude(-x)
    else [0] + Magnitude(x)
  }

  lemma {:induction false} MagnitudeRoundTrip(n: nat)
    ensures BigEndian(Magnitude(n)) == n
    decreases n
  {
    if n > 0 {
      MagnitudeRoundTrip(n / 256);
      var m := Magnitude(n);
      assert m[..|m| - 1] == Magnitude(n / 256);
    }
  }

  /** Decoding inverts the sign-and-magnitude encoding for every integer. */
  lemma FromBytesRoundTrip(x: int)
    ensures FromBytes(ToBytes(x)) == Decoded(x, None)
  {
    if x != 0 {
      var n := if x < 0 then -x else x;
      MagnitudeRoundTrip(n);
      assert ToBytes(x)[1..] == Magnitude(n);
    }
  }

  /** A zero sign byte reads the rest as `PositiveFromUnsignedBytes` does; a
      one sign byte reads its negation. */
  lemma SignByteMeaning(b: seq<byte>)
    ensures FromBytes([0] + b) == Decoded(PositiveFromUnsignedBytes(b), None)
    ensures FromBytes([1] + b) == Decoded(-PositiveFromUnsignedBytes(b), None)
  {
    assert ([0] + b)[1..] == b;
    assert ([1] + b)[1..] == b;
  }

  /** Leading zero bytes of the magnitude do not change the value. */
  lemma {:induction false} LeadingZeros(b: seq<byte>)
    ensures BigEndian([0] + b) == BigEndian(b)
    decreases |b|
  {
    if |b| > 0 {
      var c := [0] + b;
      assert c[..|c| - 1] == [0] + b[..|b| - 1];
      LeadingZeros(b[..|b| - 1]);
    }
  }

  // ---------------------------------------------------------------- folds

  /** Reference sum, folded from the front. */
  function SumOf(xs: seq<int>): int
    decreases |xs|
  {
    if |xs| == 0 then 0 else xs[0] + SumOf(xs[1..])
  }

  /** Reference product, folded from the front. */
  function ProductOf(xs: seq<int>): int
    decreases |xs|
  {
    if |xs| == 0 then 1 else xs[0] * ProductOf(xs[1..])
  }

  lemma {:induction false} SumOfSnoc(xs: seq<int>, x: int)
    ensures SumOf(xs + [x]) == SumOf(xs) + x
    decreases |xs|
  {
    if |xs| > 0 {
      assert (xs + [x])[1..] == xs[1..] + [x];
      SumOfSnoc(xs[1..], x);
    }
  }

  lemma {:induction false} ProductOfSnoc(xs: seq<int>, x: int)
    ensures ProductOf(xs + [x]) == ProductOf(xs) * x
    decreases |xs|
  {
    if |xs| > 0 {
      assert (xs + [x])[1..] == xs[1..] + [x];
      ProductOfSnoc(xs[1..], x);
      calc {
        ProductOf(xs + [x]);
        xs[0] * (ProductOf(xs[1..]) * x);
        (xs[0] * ProductOf(xs[1..])) * x;
      }
    }
  }

  /** `Sum`: adds the arguments left to right starting from 0. */
  method Sum(ints: seq<int>) returns (sum: int)
    ensures sum == SumOf(ints)
    ensures |ints| == 0 ==> sum == 0
  {
    sum := 0;
    for i := 0 to |ints|
      invariant sum == SumOf(ints[..i])
    {
      assert ints[..i + 1] == ints[..i] + [ints[i]];
      SumOfSnoc(ints[..i], ints[i]);
      sum := sum + ints[i];
    }
    assert ints[..|ints|] == ints;
  }

  /** `Product`: multiplies the arguments left to right starting from 1. */
  method Product(ints: seq<int>) returns (p: int)
    ensures p == ProductOf(ints)
    ensures |ints| == 0 ==> p == 1
  {
    p := 1;
    for i := 0 to |ints|
      invariant p == ProductOf(ints[..i])
    {
      assert ints[..i + 1] == ints[..i] + [ints[i]];
      ProductOfSnoc(ints[..i], ints[i]);
      p := p * ints[i];
    }
    assert ints[..|ints|] == ints;
  }

  /** `Subtract`: subtracts each further argument from the first in turn. */
  method Subtract(num1: int, ints: seq<int>) returns (sub: int)
    ensures sub == num1 - SumOf(ints)
    ensures |ints| == 0 ==> sub == num1
  {
    sub := num1;
    for i := 0 to |ints|
      invariant sub == num1 - SumOf(ints[..i])
    {
      assert ints[..i + 1] == ints[..i] + [ints[i]];
      SumOfSnoc(ints[..i], ints[i]);
      sub := sub - ints[i];
    }
    assert ints[..|ints|] == ints;
  }

  /** Summing splits over concatenation, so the fold order is immaterial. */
  lemma {:induction false} SumOfConcat(a: seq<int>, b: seq<int>)
    ensures SumOf(a + b) == SumOf(a) + SumOf(b)
    decreases |a|
  {
    if |a| == 0 {
      assert a + b == b;
    } else {
      assert (a + b)[0] == a[0];
      assert (a + b)[1..] == a[1..] + b;
      SumOfConcat(a[1..], b);
    }
  }

  /** A zero factor anywhere makes the product zero. */
  lemma {:induction false} ProductOfZero(xs: seq<int>, i: nat)
    requires i < |xs| && xs[i] == 0
    ensures ProductOf(xs) == 0
    decreases |xs|
  {
    if i > 0 {
      ProductOfZero(xs[1..], i - 1);
    }
  }

  // ---------------------------------------------------------------- comparison

  /** `big.Int.Cmp`: -1, 0 or +1 by the order of the arguments. */
  function Cmp(a: int, b: int): (r: int)
    ensures r == -1 || r == 0 || r == 1
    ensures r < 0 <==> a < b
    ensures r == 0 <==> a == b
    ensures r > 0 <==> a > b
  {
    if a < b then -1 else if a == b then 0 else 1
  }

  function Eq(a: int, b: int): (r: bool) ensures r <==> a == b { Cmp(a, b) == 0 }
  function Ne(a: int, b: int): (r: bool) ensures r <==> a != b { Cmp(a, b) != 0 }
  function Gt(a: int, b: int): (r: bool) ensures r <==> a > b { Cmp(a, b) > 0 }
  function Lt(a: int, b: int): (r: bool) ensures r <==> a < b { Cmp(a, b) < 0 }
  function Ge(a: int, b: int): (r: bool) ensures r <==> a >= b { Cmp(a, b) >= 0 }
  function Le(a: int, b: int): (r: bool) ensures r <==> a <= b { Cmp(a, b) <= 0 }

  /** `big.Int.Sign`. */
  function Sign(x: int): int {
    if x < 0 then -1 else if x == 0 then 0 else 1
  }

  /** `Max`: the larger argument. Its special case for two zeros tests the sign
      of a value already known to be zero, so it always returns `x` there. */
  function Max(x: int, y: int): (r: int)
    ensures r == x || r == y
    ensures r >= x && r >= y
  {
    if Eq(x, 0) && Eq(x, y) then
      (if Sign(x) != 0 then y else x)
    else if Gt(x, y) then x
    else y
  }

  /** `Min`: the smaller argument, with the same special case for two zeros. */
  function Min(x: int, y: int): (r: int)
    ensures r == x || r == y
    ensures r <= x && r <= y
  {
    if Eq(x, 0) && Eq(x, y) then
      (if Sign(x) != 0 then x else y)
    else if Lt(x, y) then x
    else y
  }

  /** `Max` and `Min` split a pair: together they are the two arguments. */
  lemma MaxMinPartition(x: int, y: int)
    ensures Max(x, y) + Min(x, y) == x + y
    ensures Max(x, y) == -Min(-x, -y)
    ensures Max(x, y) == Max(y, x) && Min(x, y) == Min(y, x)
  {
  }

  // ---------------------------------------------------------------- powers

  /** `Exp(a, e)` with no modulus: `a` to the power `e`, and 1 when `e <= 0`.
      Computed by square-and-multiply. */
  method Exp(a: int, e: int) returns (r: int)
    ensures e <= 0 ==> r == 1
    ensures e > 0 ==> r == Pow(a, e)
  {
    r := 1;
    if e <= 0 {
      return;
    }
    var base := a;
    var n: nat := e;
    while n > 0
      invariant r * Pow(base, n) == Pow(a, e)
      decreases n
    {
      var half := n / 2;
      PowSquare(base, half);
      if n % 2 == 1 {
        PowAdd(base, 1, 2 * half);
        calc {
          r * Pow(base, n);
          r * (Pow(base, 1) * Pow(base * base, half));
          (r * base) * Pow(base * base, half);
        }
        r := r * base;
      }
      base := base * base;
      n := half;
    }
  }
}

=== FILE: bytes.dfy ===
/** Shared value types: bytes, optional values, and Go's `(value, error)` results. */
module Bytes {

  /** An unsigned 8-bit Go `byte`. */
  type byte = b: int | 0 <= b < 256

  /** Go's `byte(n)` conversion of a non-negative `int`: only the low 8 bits survive. */
  function ToByte(n: nat): (b: byte)
    ensures n < 256 ==> b == n
    ensures (n - b) % 256 == 0
  {
    n % 256
  }

  datatype Option<+T> = None | Some(value: T)

  /** A value, or the message of the `error` returned in its place. */
  datatype Result<+T> = Success(value: T) | Failure(message: string)
}

=== FILE: io_base.dfy ===
/** The abstract streams the decorators wrap.

    The inner reader is a `Source`: a finite byte sequence served in reads of
    at most `chunk` bytes (short reads), ending with a terminal error that is
    reported either on the read after the data runs out or, when `eagerEnd`
    holds, together with the last bytes. The inner writer is a `Sink`
    accepting at most `room` more bytes, reporting `full` on a short write.
    Both keep the `io.Reader`/`io.Writer` contracts: `0 <= n <= len(p)`, and
    a write shorter than `p` comes with an error. */
module Io {
  import opened Bytes

  datatype Error = EOF | ErrShortWrite | Other(code: nat)

  /** What a `Read` leaves behind: the reader's next state, the caller's
      buffer after the call, the count and the error. */
  datatype ReadResult<R> = ReadResult(reader: R, buf: seq<byte>, n: int, err: Option<Error>)

  /** What a `Write` leaves behind: the writer's next state, the count and the error. */
  datatype WriteResult<W> = WriteResult(writer: W, n: int, err: Option<Error>)

  datatype Source = Source(rest: seq<byte>, chunk: nat, end: Error, eagerEnd: bool)

  function Min(a: int, b: int): int {
    if a <= b then a else b
  }

  /** How many bytes a skip count still swallows: a count that is not
      positive swallows nothing. */
  function Pending(skip: int): nat {
    if skip > 0 then skip else 0
  }

  /** One `Read` of the inner reader. */
  function SourceRead(s: Source, p: seq<byte>): (r: ReadResult<Source>)
    requires s.chunk > 0
    ensures 0 <= r.n <= |p| && r.n <= |s.rest| && |r.buf| == |p|
    ensures r.buf == s.rest[..r.n] + p[r.n..]
    ensures r.reader == s.(rest := s.rest[r.n..])
    ensures |p| > 0 ==> r.n > 0 || r.err.Some?
    ensures r.err.Some? <==> |s.rest| == 0 || (s.eagerEnd && |r.reader.rest| == 0)
    ensures r.err.Some? ==> r.err.value == s.end
  {
    if |s.rest| == 0 then
      ReadResult(s, p, 0, Some(s.end))
    else
      var n := Min(Min(|p|, s.chunk), |s.rest|);
      var s' := s.(rest := s.rest[n..]);
      ReadResult(s', s.rest[..n] + p[n..], n, if s.eagerEnd && |s'.rest| == 0 then Some(s.end) else None)
  }

  datatype Sink = Sink(out: seq<byte>, room: nat, full: Error)

  /** One `Write` to the inner writer. */
  function SinkWrite(s: Sink, p: seq<byte>): (r: WriteResult<Sink>)
    ensures 0 <= r.n <= |p| && r.n <= s.room
    ensures r.writer == Sink(s.out + p[..r.n], s.room - r.n, s.full)
    ensures r.err.Some? <==> r.n < |p|
    ensures r.err.Some? ==> r.err.value == s.full && r.writer.room == 0
  {
    var n := Min(|p|, s.room);
    WriteResult(Sink(s.out + p[..n], s.room - n, s.full), n, if n < |p| then Some(s.full) else None)
  }
}

=== FILE: keyed_mutex.dfy ===
/** The generic keyed mutex `MapMutex[T]`.

    One structural mutex guards a map from key to entry; each entry holds an
    inner `sync.Mutex` and a reference count. Every registry method runs in
    one critical section of the structural mutex, so each is one atomic
    transition of a `Registry`. The only wait outside that critical section,
    a blocked `Lock` waiting for the inner mutex, is the separate `Acquire`
    step, enabled only while the inner mutex is free. */
module KeyedMutex {
  import opened Panics

  /** One registry entry: whether the inner mutex is locked, how many
      goroutines are blocked on it, and the stored reference count. */
  datatype Entry = Entry(locked: bool, waiters: nat, refs: int)

  type Registry<K> = map<K, Entry>

  /** Where a `Lock` call leaves its caller. */
  datatype Progress = Holding | Blocked

  /** The entry a first `Lock` or `TryLock` creates: refcount 1, inner mutex
      already taken by the creator. */
  const Fresh := Entry(true, 0, 1)

  /** The reference count of `k`, 0 when it has no entry. */
  function Refs<K>(m: Registry<K>, k: K): int {
    if k in m then m[k].refs else 0
  }

  /** An entry is consistent when its count is positive and equals the
      holder (0 or 1) plus the goroutines blocked on the inner mutex. */
  predicate EntryOk(e: Entry) {
    e.refs >= 1 && e.refs == (if e.locked then 1 else 0) + e.waiters
  }

  ghost predicate Valid<K>(m: Registry<K>) {
    forall k :: k in m ==> EntryOk(m[k])
  }

  /** Every key other than `k` has the same entry, or lack of one, in both maps. */
  ghost predicate OthersUnchanged<K>(m: Registry<K>, m': Registry<K>, k: K) {
    && (forall j :: j in m && j != k ==> j in m' && m'[j] == m[j])
    && (forall j :: j in m' && j != k ==> j in m)
  }

  /** A goroutine blocked in `Lock(k)` may take the inner mutex. */
  predicate CanAcquire<K>(m: Registry<K>, k: K) {
    k in m && !m[k].locked && m[k].waiters > 0
  }

  /** `Lock(k)`: a missing entry is created already held; an existing one
      gains a reference and the caller blocks on its inner mutex. */
  function Lock<K>(m: Registry<K>, k: K): (r: (Registry<K>, Progress))
    ensures r.1 == Holding <==> k !in m
    ensures k in r.0 && Refs(r.0, k) == Refs(m, k) + 1
    ensures r.1 == Holding ==> r.0[k].locked && r.0[k].waiters == 0
    ensures r.1 == Blocked ==> r.0[k].locked == m[k].locked && r.0[k].waiters == m[k].waiters + 1
    ensures OthersUnchanged(m, r.0, k)
    ensures Valid(m) ==> Valid(r.0)
  {
    if k !in m then
      (m[k := Fresh], Holding)
    else
      var e := m[k];
      (m[k := e.(waiters := e.waiters + 1, refs := e.refs + 1)], Blocked)
  }

  /** The blocked `Lock` caller takes the free inner mutex; the count is untouched. */
  function Acquire<K>(m: Registry<K>, k: K): (r: Registry<K>)
    requires CanAcquire(m, k)
    ensures k in r && r[k].locked && r[k].waiters == m[k].waiters - 1
    ensures Refs(r, k) == Refs(m, k)
    ensures OthersUnchanged(m, r, k)
    ensures Valid(m) ==> Valid(r)
  {
    var e := m[k];
    m[k := e.(locked := true, waiters := e.waiters - 1)]
  }

  /** `TryLock(k)`: succeeds exactly when `k` has no entry, even if an existing
      entry's inner mutex happens to be free. */
  function TryLock<K>(m: Registry<K>, k: K): (r: (Registry<K>, bool))
    ensures r.1 <==> k !in m
    ensures r.1 ==> k in r.0 && r.0[k].locked && r.0[k].waiters == 0 && Refs(r.0, k) == 1
    ensures !r.1 ==> r.0 == m
    ensures OthersUnchanged(m, r.0, k)
    ensures Valid(m) ==> Valid(r.0)
  {
    if k !in m then (m[k := Fresh], true) else (m, false)
  }

  /** `Unlock(k)`: a key without an entry panics; otherwise the inner mutex is
      released (a fatal error if it was not locked), the count drops by one,
      and the entry is deleted exactly when the count reaches 0. */
  function Unlock<K>(m: Registry<K>, k: K): (r: Outcome<Registry<K>>)
    ensures k !in m ==> r == Fatal(Unreachable)
    ensures k in m && !m[k].locked ==> r == Fatal(UnlockOfUnlocked)
    ensures k in m && m[k].locked ==> r.Ok?
    ensures r.Ok? ==> Refs(r.value, k) == Refs(m, k) - 1
    ensures r.Ok? ==> (k in r.value <==> m[k].refs != 1)
    ensures r.Ok? && k in r.value ==> !r.value[k].locked && r.value[k].waiters == m[k].waiters
    ensures r.Ok? ==> OthersUnchanged(m, r.value, k)
    ensures r.Ok? && Valid(m) ==> Valid(r.value)
  {
    if k !in m then
      Fatal(Unreachable)
    else if !m[k].locked then
      Fatal(UnlockOfUnlocked)
    else
      var e := m[k].(locked := false, refs := m[k].refs - 1);
      if e.refs == 0 then Ok(m - {k}) else Ok(m[k := e])
  }

  /** One scheduled action on the registry. */
  datatype Op<K> = LockOp(key: K) | TryLockOp(key: K) | UnlockOp(key: K) | AcquireOp(key: K)

  /** An `AcquireOp` that is not enabled leaves the blocked goroutine blocked. */
  function Step<K>(m: Registry<K>, op: Op<K>): Outcome<Registry<K>> {
    match op
    case LockOp(k) => Ok(Lock(m, k).0)
    case TryLockOp(k) => Ok(TryLock(m, k).0)
    case UnlockOp(k) => Unlock(m, k)
    case AcquireOp(k) => if CanAcquire(m, k) then Ok(Acquire(m, k)) else Ok(m)
  }

  /** Runs a schedule of actions, stopping at the first panic. */
  function Run<K>(m: Registry<K>, ops: seq<Op<K>>): Outcome<Registry<K>>
    decreases |ops|
  {
    if |ops| == 0 then Ok(m)
    else
      match Step(m, ops[0])
      case Fatal(p) => Fatal(p)
      case Ok(m') => Run(m', ops[1..])
  }

  /** No interleaving of registry actions that avoids a panic breaks the
      entry invariant. */
  lemma {:induction false} RunPreservesValid<K>(m: Registry<K>, ops: seq<Op<K>>)
    requires Valid(m)
    requires Run(m, ops).Ok?
    ensures Valid(Run(m, ops).value)
    decreases |ops|
  {
    if |ops| > 0 {
      var s := Step(m, ops[0]);
      assert Valid(s.value);
      RunPreservesValid(s.value, ops[1..]);
    }
  }

  /** No leaked entries: once nobody holds or waits for any key, the registry is empty. */
  lemma QuiescentIsEmpty<K>(m: Registry<K>)
    requires Valid(m)
    requires forall k :: k in m ==> !m[k].locked && m[k].waiters == 0
    ensures m == map[]
  {
    assert m.Keys == {};
  }

  /** `Lock` then `Unlock` on a key with no entry returns the registry to where it was. */
  lemma LockUnlockRestores<K>(m: Registry<K>, k: K)
    requires k !in m
    ensures Unlock(Lock(m, k).0, k) == Ok(m)
  {
    assert m[k := Fresh] - {k} == m;
  }

  /** A successful `TryLock` followed by `Unlock` returns the registry to where it was. */
  lemma TryLockUnlockRestores<K>(m: Registry<K>, k: K)
    requires TryLock(m, k).1
    ensures Unlock(TryLock(m, k).0, k) == Ok(m)
  {
    assert m[k := Fresh] - {k} == m;
  }

  /** Two contending goroutines on a key with no entry: the first holds, the
      second blocks, the first unlocks, the second acquires and unlocks. The
      entry is gone again at the end. */
  lemma ContendedHandoffRestores<K>(m: Registry<K>, k: K)
    requires k !in m
    ensures var (m1, p1) := Lock(m, k);
            var (m2, p2) := Lock(m1, k);
            p1 == Holding && p2 == Blocked
            && Unlock(m2, k).Ok?
            && CanAcquire(Unlock(m2, k).value, k)
            && Unlock(Acquire(Unlock(m2, k).value, k), k) == Ok(m)
  {
    var m1 := Lock(m, k).0;
    var m2 := Lock(m1, k).0;
    var m3 := Unlock(m2, k).value;
    assert m3 == m[k := Entry(false, 1, 1)];
    var m4 := Acquire(m3, k);
    assert m4 == m[k := Fresh];
    assert m[k := Fresh] - {k} == m;
  }

  /** `TryLock` fails while the key is held, and succeeds right after its only
      holder unlocks with nobody waiting. */
  lemma TryLockAfterLastUnlock<K>(m: Registry<K>, k: K)
    requires Valid(m) && k in m && m[k].locked && m[k].waiters == 0
    ensures !TryLock(m, k).1
    ensures Unlock(m, k).Ok? && TryLock(Unlock(m, k).value, k).1
  {
    assert EntryOk(m[k]);
  }

  /** `TryLock` fails whenever an entry exists, even one whose inner mutex is
      free because its holder just released it to a waiter. */
  lemma TryLockRefusesFreeEntry<K>(m: Registry<K>, k: K)
    requires Valid(m) && k in m && m[k].locked && m[k].waiters > 0
    ensures Unlock(m, k).Ok?
    ensures var m' := Unlock(m, k).value; k in m' && !m'[k].locked && !TryLock(m', k).1
  {
    assert EntryOk(m[k]);
  }
}

=== FILE: keyed_rwmutex.dfy ===
/** The generic keyed reader/writer mutex `MapRWMutex[T]`.

    Same registry discipline as `MapMutex[T]`, with a `sync.RWMutex` per entry
    (Go's `MapRWMutex` keeps the entries in an ordered tree map; only key equality
    matters to its behaviour). The reference count covers the writer, the
    readers and every goroutine blocked in `Lock` or `RLock`. The two blocking
    waits are the separate steps `AcquireWrite` and `AcquireRead`. */
module KeyedRWMutex {
  import opened Panics

  /** One registry entry: the inner `sync.RWMutex` state (a writer, or some
      readers), the goroutines blocked in `Lock` and in `RLock`, and the count. */
  datatype Entry = Entry(writer: bool, readers: nat, writersWaiting: nat, readersWaiting: nat, refs: int)

  type Registry<K> = map<K, Entry>

  datatype Progress = Holding | Blocked

  /** The entry a first `Lock`/`TryLock` creates, held by its writer. */
  const FreshWriter := Entry(true, 0, 0, 0, 1)
  /** The entry a first `RLock`/`TryRLock` creates, held by one reader. */
  const FreshReader := Entry(false, 1, 0, 0, 1)

  function Refs<K>(m: Registry<K>, k: K): int {
    if k in m then m[k].refs else 0
  }

  /** The count equals writer + readers + blocked goroutines and is positive;
      a writer never shares the lock with readers. */
  predicate EntryOk(e: Entry) {
    && e.refs >= 1
    && e.refs == (if e.writer then 1 else 0) + e.readers + e.writersWaiting + e.readersWaiting
    && !(e.writer && e.readers > 0)
  }

  ghost predicate Valid<K>(m: Registry<K>) {
    forall k :: k in m ==> EntryOk(m[k])
  }

  ghost predicate OthersUnchanged<K>(m: Registry<K>, m': Registry<K>, k: K) {
    && (forall j :: j in m && j != k ==> j in m' && m'[j] == m[j])
    && (forall j :: j in m' && j != k ==> j in m)
  }

  /** The inner `TryRLock`: a read lock is granted unless a writer holds it. */
  predicate ReadFree(e: Entry) {
    !e.writer
  }

  predicate CanAcquireWrite<K>(m: Registry<K>, k: K) {
    k in m && m[k].writersWaiting > 0 && !m[k].writer && m[k].readers == 0
  }

  predicate CanAcquireRead<K>(m: Registry<K>, k: K) {
    k in m && m[k].readersWaiting > 0 && ReadFree(m[k])
  }

  /** `Lock(k)`: a new entry is created write-held; an existing one gains a
      reference and the caller blocks for the write lock. */
  function Lock<K>(m: Registry<K>, k: K): (r: (Registry<K>, Progress))
    ensures r.1 == Holding <==> k !in m
    ensures k in r.0 && Refs(r.0, k) == Refs(m, k) + 1
    ensures r.1 == Holding ==> r.0[k].writer && r.0[k].readers == 0
    ensures r.1 == Blocked ==> r.0[k].writersWaiting == m[k].writersWaiting + 1
    ensures r.1 == Blocked ==> r.0[k].(writersWaiting := m[k].writersWaiting, refs := m[k].refs) == m[k]
    ensures OthersUnchanged(m, r.0, k)
    ensures Valid(m) ==> Valid(r.0)
  {
    if k !in m then
      (m[k := FreshWriter], Holding)
    else
      var e := m[k];
      (m[k := e.(writersWaiting := e.writersWaiting + 1, refs := e.refs + 1)], Blocked)
  }

  /** `RLock(k)`: a new entry is created read-held by the caller; an existing
      one gains a reference and the caller blocks for a read lock. */
  function RLock<K>(m: Registry<K>, k: K): (r: (Registry<K>, Progress))
    ensures r.1 == Holding <==> k !in m
    ensures k in r.0 && Refs(r.0, k) == Refs(m, k) + 1
    ensures r.1 == Holding ==> !r.0[k].writer && r.0[k].readers == 1
    ensures r.1 == Blocked ==> r.0[k].readersWaiting == m[k].readersWaiting + 1
    ensures r.1 == Blocked ==> r.0[k].(readersWaiting := m[k].readersWaiting, refs := m[k].refs) == m[k]
    ensures OthersUnchanged(m, r.0, k)
    ensures Valid(m) ==> Valid(r.0)
  {
    if k !in m then
      (m[k := FreshReader], Holding)
    else
      var e := m[k];
      (m[k := e.(readersWaiting := e.readersWaiting + 1, refs := e.refs + 1)], Blocked)
  }

  /** A goroutine blocked in `Lock(k)` takes the write lock. */
  function AcquireWrite<K>(m: Registry<K>, k: K): (r: Registry<K>)
    requires CanAcquireWrite(m, k)
    ensures k in r && r[k].writer && r[k].readers == 0
    ensures r[k].writersWaiting == m[k].writersWaiting - 1 && Refs(r, k) == Refs(m, k)
    ensures OthersUnchanged(m, r, k)
    ensures Valid(m) ==> Valid(r)
  {
    var e := m[k];
    m[k := e.(writer := true, writersWaiting := e.writersWaiting - 1)]
  }

  /** A goroutine blocked in `RLock(k)` joins the readers. */
  function AcquireRead<K>(m: Registry<K>, k: K): (r: Registry<K>)
    requires CanAcquireRead(m, k)
    ensures k in r && !r[k].writer && r[k].readers == m[k].readers + 1
    ensures r[k].readersWaiting == m[k].readersWaiting - 1 && Refs(r, k) == Refs(m, k)
    ensures OthersUnchanged(m, r, k)
    ensures Valid(m) ==> Valid(r)
  {
    var e := m[k];
    m[k := e.(readers := e.readers + 1, readersWaiting := e.readersWaiting - 1)]
  }

  /** `TryLock(k)`: succeeds exactly when `k` has no entry. */
  function TryLock<K>(m: Registry<K>, k: K): (r: (Registry<K>, bool))
    ensures r.1 <==> k !in m
    ensures r.1 ==> k in r.0 && r.0[k].writer && Refs(r.0, k) == 1
    ensures !r.1 ==> r.0 == m
    ensures OthersUnchanged(m, r.0, k)
    ensures Valid(m) ==> Valid(r.0)
  {
    if k !in m then (m[k := FreshWriter], true) else (m, false)
  }

  /** `TryRLock(k)`: on a new entry the inner try-read cannot fail, so the
      `panic("unreachable")` branch is dead; on an existing entry the call
      succeeds, and takes a reference, exactly when no writer holds the lock. */
  function TryRLock<K>(m: Registry<K>, k: K): (r: Outcome<(Registry<K>, bool)>)
    ensures r.Ok?
    ensures r.value.1 <==> k !in m || ReadFree(m[k])
    ensures r.value.1 ==> k in r.value.0 && Refs(r.value.0, k) == Refs(m, k) + 1
    ensures r.value.1 ==> r.value.0[k].readers == (if k in m then m[k].readers else 0) + 1
    ensures r.value.1 && k in m ==> r.value.0[k].(readers := m[k].readers, refs := m[k].refs) == m[k]
    ensures !r.value.1 ==> r.value.0 == m
    ensures OthersUnchanged(m, r.value.0, k)
    ensures Valid(m) ==> Valid(r.value.0)
  {
    if k !in m then
      var e := Entry(false, 0, 0, 0, 1);
      if !ReadFree(e) then Fatal(Unreachable)
      else Ok((m[k := e.(readers := 1)], true))
    else if ReadFree(m[k]) then
      var e := m[k];
      Ok((m[k := e.(readers := e.readers + 1, refs := e.refs + 1)], true))
    else
      Ok((m, false))
  }

  /** `Unlock(k)`: panics without an entry, is fatal without a writer,
      otherwise releases the write lock and drops one reference, deleting the
      entry exactly when the count reaches 0. */
  function Unlock<K>(m: Registry<K>, k: K): (r: Outcome<Registry<K>>)
    ensures k !in m ==> r == Fatal(Unreachable)
    ensures k in m && !m[k].writer ==> r == Fatal(UnlockOfUnlocked)
    ensures k in m && m[k].writer ==> r.Ok?
    ensures r.Ok? ==> Refs(r.value, k) == Refs(m, k) - 1
    ensures r.Ok? ==> (k in r.value <==> m[k].refs != 1)
    ensures r.Ok? && k in r.value ==> !r.value[k].writer
    ensures r.Ok? && k in r.value ==> r.value[k].(writer := true, refs := m[k].refs) == m[k]
    ensures r.Ok? ==> OthersUnchanged(m, r.value, k)
    ensures r.Ok? && Valid(m) ==> Valid(r.value)
  {
    if k !in m then
      Fatal(Unreachable)
    else if !m[k].writer then
      Fatal(UnlockOfUnlocked)
    else
      var e := m[k].(writer := false, refs := m[k].refs - 1);
      if e.refs == 0 then Ok(m - {k}) else Ok(m[k := e])
  }

  /** `RUnlock(k)`: panics without an entry, is fatal without a reader,
      otherwise drops one reader and one reference, deleting the entry exactly
      when the count reaches 0. */
  function RUnlock<K>(m: Registry<K>, k: K): (r: Outcome<Registry<K>>)
    ensures k !in m ==> r == Fatal(Unreachable)
    ensures k in m && m[k].readers == 0 ==> r == Fatal(RUnlockOfUnlocked)
    ensures k in m && m[k].readers > 0 ==> r.Ok?
    ensures r.Ok? ==> Refs(r.value, k) == Refs(m, k) - 1
    ensures r.Ok? ==> (k in r.value <==> m[k].refs != 1)
    ensures r.Ok? && k in r.value ==> r.value[k].readers == m[k].readers - 1
    ensures r.Ok? && k in r.value ==> r.value[k].(readers := m[k].readers, refs := m[k].refs) == m[k]
    ensures r.Ok? ==> OthersUnchanged(m, r.value, k)
    ensures r.Ok? && Valid(m) ==> Valid(r.value)
  {
    if k !in m then
      Fatal(Unreachable)
    else if m[k].readers == 0 then
      Fatal(RUnlockOfUnlocked)
    else
      var e := m[k].(readers := m[k].readers - 1, refs := m[k].refs - 1);
      if e.refs == 0 then Ok(m - {k}) else Ok(m[k := e])
  }

  datatype Op<K> =
    | LockOp(key: K) | RLockOp(key: K) | TryLockOp(key: K) | TryRLockOp(key: K)
    | UnlockOp(key: K) | RUnlockOp(key: K) | AcquireWriteOp(key: K) | AcquireReadOp(key: K)

  /** An acquire step that is not enabled leaves its goroutine blocked. */
  function Step<K>(m: Registry<K>, op: Op<K>): Outcome<Registry<K>> {
    match op
    case LockOp(k) => Ok(Lock(m, k).0)
    case RLockOp(k) => Ok(RLock(m, k).0)
    case TryLockOp(k) => Ok(TryLock(m, k).0)
    case TryRLockOp(k) =>
      (match TryRLock(m, k) case Ok(p) => Ok(p.0) case Fatal(e) => Fatal(e))
    case UnlockOp(k) => Unlock(m, k)
    case RUnlockOp(k) => RUnlock(m, k)
    case AcquireWriteOp(k) => if CanAcquireWrite(m, k) then Ok(AcquireWrite(m, k)) else Ok(m)
    case AcquireReadOp(k) => if CanAcquireRead(m, k) then Ok(AcquireRead(m, k)) else Ok(m)
  }

  function Run<K>(m: Registry<K>, ops: seq<Op<K>>): Outcome<Registry<K>>
    decreases |ops|
  {
    if |ops| == 0 then Ok(m)
    else
      match Step(m, ops[0])
      case Fatal(p) => Fatal(p)
      case Ok(m') => Run(m', ops[1..])
  }

  /** Every schedule that avoids a panic keeps the count equal to writer +
      readers + waiters, keeps it positive, and never lets a writer and readers
      hold the same key together. */
  lemma {:induction false} RunPreservesValid<K>(m: Registry<K>, ops: seq<Op<K>>)
    requires Valid(m)
    requires Run(m, ops).Ok?
    ensures Valid(Run(m, ops).value)
    decreases |ops|
  {
    if |ops| > 0 {
      var s := Step(m, ops[0]);
      assert Valid(s.value);
      RunPreservesValid(s.value, ops[1..]);
    }
  }

  /** Pairs started on a key with no entry leave no entry behind. */
  lemma PairsRestore<K>(m: Registry<K>, k: K)
    requires k !in m
    ensures Unlock(Lock(m, k).0, k) == Ok(m)
    ensures RUnlock(RLock(m, k).0, k) == Ok(m)
    ensures Unlock(TryLock(m, k).0, k) == Ok(m)
    ensures RUnlock(TryRLock(m, k).value.0, k) == Ok(m)
  {
    assert m[k := FreshWriter] - {k} == m;
    assert m[k := FreshReader] - {k} == m;
  }

  /** Readers share a key: while some reader holds it, `TryRLock` succeeds and
      a second reader's `RUnlock` leaves the first one holding. */
  lemma ReadersShare<K>(m: Registry<K>, k: K)
    requires Valid(m) && k in m && m[k].readers > 0
    ensures TryRLock(m, k).value.1
    ensures var m' := TryRLock(m, k).value.0;
            RUnlock(m', k) == Ok(m)
  {
    assert EntryOk(m[k]);
    var m' := TryRLock(m, k).value.0;
    assert m'[k := m[k]] == m;
  }

  /** While a writer holds a key, `TryRLock` and `TryLock` both fail and leave
      the registry unchanged. */
  lemma WriterExcludesTries<K>(m: Registry<K>, k: K)
    requires k in m && m[k].writer
    ensures TryRLock(m, k) == Ok((m, false))
    ensures TryLock(m, k) == (m, false)
  {
  }

  /** No leaked entries: once nobody holds or waits for any key, the registry is empty. */
  lemma QuiescentIsEmpty<K>(m: Registry<K>)
    requires Valid(m)
    requires forall k :: k in m ==>
      !m[k].writer && m[k].readers == 0 && m[k].writersWaiting == 0 && m[k].readersWaiting == 0
    ensures m == map[]
  {
    assert m.Keys == {};
  }
}

=== FILE: padding.dfy ===
/** PKCS #7 padding as defined in section 6.3 of RFC 5652: `k` bytes, each of
    value `k`, fill the input up to the next multiple of the block size. */
module Pkcs7 {
  import opened Bytes

  /** `PKCS7Padding`: appends `blockSize - len(data) % blockSize` copies of
      that count (as a byte). A zero block size makes `PKCS7Padding` divide by zero;
      a negative one asks `bytes.Repeat` for a negative count; both panic. */
  function Pad(data: seq<byte>, blockSize: int): (r: seq<byte>)
    requires blockSize > 0
    ensures 1 <= |r| - |data| <= blockSize
    ensures |r| % blockSize == 0
    ensures r[..|data|] == data
    ensures forall i :: |data| <= i < |r| ==> r[i] == ToByte(|r| - |data|)
    ensures |data| % blockSize == 0 ==> |r| == |data| + blockSize
  {
    var padding := blockSize - |data| % blockSize;
    FillsBlock(|data|, blockSize);
    data + seq(padding, _ => ToByte(padding))
  }

  /** Adding `blockSize - n % blockSize` to `n` reaches a multiple of `blockSize`. */
  lemma FillsBlock(n: nat, blockSize: int)
    requires blockSize > 0
    ensures (n + (blockSize - n % blockSize)) % blockSize == 0
  {
    var x := n + (blockSize - n % blockSize);
    var q := n / blockSize;
    assert x == blockSize * (q + 1);
    var t := q + 1 - x / blockSize;
    assert blockSize * t == x % blockSize;
  }

  const IllegalPadding := "illegal PKCS7Padding data"

  /** `PKCS7UnPadding`: drops as many trailing bytes as the last byte says,
      refusing only when that exceeds the length. `PKCS7UnPadding` indexes the
      last byte unconditionally, so empty input panics. */
  function Unpad(data: seq<byte>): (r: Result<seq<byte>>)
    requires |data| > 0
    ensures r.Failure? <==> data[|data| - 1] > |data|
    ensures r.Failure? ==> r.message == IllegalPadding
    ensures r.Success? ==> |r.value| == |data| - data[|data| - 1] && r.value <= data
  {
    var unpadding := data[|data| - 1];
    if |data| < unpadding then Failure(IllegalPadding)
    else Success(data[..|data| - unpadding])
  }

  /** Unpadding undoes padding for every block size a pad byte can express. */
  lemma RoundTrip(data: seq<byte>, blockSize: int)
    requires 1 <= blockSize <= 255
    ensures Unpad(Pad(data, blockSize)) == Success(data)
  {
    var r := Pad(data, blockSize);
    assert r[|r| - 1] == |r| - |data|;
    assert r[..|data|] == data;
  }

  /** When more than 255 bytes are added the pad byte is truncated, and the
      round trip breaks: unpadding removes fewer bytes than were added. This
      needs a block size above 255, and an input whose length leaves more
      than 255 bytes to fill (an aligned input, for one). */
  lemma WideBlockBreaksRoundTrip(data: seq<byte>, blockSize: int)
    requires blockSize > 0 && blockSize - |data| % blockSize > 255
    ensures Unpad(Pad(data, blockSize)) != Success(data)
  {
    var r := Pad(data, blockSize);
    var k := |r| - |data|;
    assert r[|r| - 1] == ToByte(k);
    assert ToByte(k) < k;
  }

  /** For example, an empty input padded to a 256-byte block comes back as
      256 zero bytes. */
  lemma WideBlockExample()
    ensures Pad([], 256) == seq(256, _ => 0)
    ensures Unpad(Pad([], 256)) == Success(seq(256, _ => 0))
  {
    var z: seq<byte> := seq(256, _ => 0);
    assert Pad([], 256) == z;
    assert z[|z| - 1] == 0;
    assert z[..|z|] == z;
  }

  /** Only the last byte is inspected: any two inputs of equal length that end
      in the same byte unpad to prefixes of the same length, or both fail. */
  lemma OnlyLastByteDecides(a: seq<byte>, b: seq<byte>)
    requires |a| == |b| > 0 && a[|a| - 1] == b[|b| - 1]
    ensures Unpad(a).Failure? <==> Unpad(b).Failure?
    ensures Unpad(a).Success? ==> |Unpad(a).value| == |Unpad(b).value|
  {
  }

  /** A last byte of 0 is accepted and removes nothing; padding bytes other
      than the last are never checked. */
  lemma LaxInputsAccepted(x: seq<byte>)
    ensures Unpad(x + [0]) == Success(x + [0])
    ensures Unpad([1, 2, 3, 2]) == Success([1, 2])
  {
    assert (x + [0])[..|x + [0]|] == x + [0];
    assert [1, 2, 3, 2][..2] == [1, 2];
  }
}

=== FILE: panics.dfy ===
/** The fatal outcomes of the keyed-lock registries.

    Every registry operation either completes (`Ok`) or stops the calling
    goroutine with a panic (`Fatal`). Misuse is never recovered from: the
    model only records which panic is raised. */
module Panics {

  datatype Panic =
    /** The registry's own `panic("unreachable")`: unlocking a key that has no entry. */
    | Unreachable
    /** The Go runtime's fatal error for releasing a write lock nobody holds. */
    | UnlockOfUnlocked
    /** The Go runtime's fatal error for releasing a read lock nobody holds. */
    | RUnlockOfUnlocked
    /** Indexing a map whose key type is `interface{}` with a value whose dynamic
        type is not comparable. `registryLockHeld` records whether the registry's
        structural mutex is still locked when the panic unwinds (true where the
        operation has no deferred unlock). */
    | UnhashableKey(registryLockHeld: bool)

  datatype Outcome<+S> = Ok(value: S) | Fatal(panic: Panic)
}

=== FILE: private_ip.dfy ===
/** The private-address test for IPv4: the three blocks that section 3 of
    RFC 1918 reserves for private internets, 10.0.0.0/8, 172.16.0.0/12 and
    192.168.0.0/16. An address is a `net.IP`, a byte slice of 4 bytes or of
    16 bytes (IPv6 form, possibly an IPv4-mapped address). */
module PrivateIp {
  import opened Bytes
  import Arith

  /** `net.IP.To4`: the 4-byte form of an IPv4 address, either given directly
      or mapped into IPv6 as `::ffff:a.b.c.d`; nothing for anything else. */
  function To4(ip: seq<byte>): (r: Option<seq<byte>>)
    ensures r.Some? ==> |ip| >= 4 && |r.value| == 4 && r.value == ip[|ip| - 4..]
    ensures r.Some? <==> |ip| == 4 || (|ip| == 16 && ip[..12] == Mapped)
  {
    if |ip| == 4 then Some(ip)
    else if |ip| == 16 && ip[..12] == Mapped then Some(ip[12..16])
    else None
  }

  /** The 12-byte prefix of an IPv4-mapped IPv6 address. */
  const Mapped: seq<byte> := [0, 0, 0, 0, 0, 0, 0, 0, 0, 0, 255, 255]

  /** `IsPrivateIp`: a switch over the first two octets of the IPv4 form. */
  function IsPrivateIp(ip: seq<byte>): (r: bool)
    ensures r ==> To4(ip).Some?
    ensures To4(ip).Some? ==> var o := To4(ip).value;
      (o[0] == 10 ==> r) && (o[0] == 192 && o[1] == 168 ==> r)
  {
    match To4(ip)
    case None => false
    case Some(ip4) =>
      if ip4[0] == 10 then true
      else if ip4[0] == 172 && ip4[1] >= 16 && ip4[1] <= 31 then true
      else if ip4[0] == 192 && ip4[1] == 168 then true
      else false
  }

  /** The address as an unsigned 32-bit number, most significant octet first. */
  function Value(o: seq<byte>): nat
    requires |o| == 4
  {
    var a: int, b: int, c: int, d: int := o[0], o[1], o[2], o[3];
    a * 0x100_0000 + b * 0x1_0000 + c * 0x100 + d
  }

  /** Membership in a CIDR block: the top `prefixLen` bits agree with `base`. */
  function InBlock(v: nat, base: nat, prefixLen: nat): bool
    requires prefixLen <= 32
  {
    v / Arith.Pow(2, 32 - prefixLen) == base / Arith.Pow(2, 32 - prefixLen)
  }

  /** The RFC 1918 definition, stated independently of the octet switch. */
  predicate Rfc1918(v: nat) {
    || InBlock(v, 0x0A00_0000, 8)      // 10.0.0.0/8
    || InBlock(v, 0xAC10_0000, 12)     // 172.16.0.0/12
    || InBlock(v, 0xC0A8_0000, 16)     // 192.168.0.0/16
  }

  /** The octet switch computes exactly membership in the RFC 1918 blocks. */
  lemma MatchesRfc1918(ip: seq<byte>)
    ensures IsPrivateIp(ip) <==> To4(ip).Some? && Rfc1918(Value(To4(ip).value))
  {
    if To4(ip).Some? {
      var o := To4(ip).value;
      var v := Value(o);
      var a: int, b: int, c: int, d: int := o[0], o[1], o[2], o[3];
      assert Arith.Pow(2, 24) == 0x100_0000 && Arith.Pow(2, 20) == 0x10_0000 && Arith.Pow(2, 16) == 0x1_0000 by {
        assert Arith.Pow(2, 8) == 256;
        assert Arith.Pow(2, 16) == 256 * 256 by { Arith.PowAdd(2, 8, 8); }
        assert Arith.Pow(2, 20) == 16 * Arith.Pow(2, 16) by { Arith.PowAdd(2, 4, 16); }
        assert Arith.Pow(2, 24) == 256 * Arith.Pow(2, 16) by { Arith.PowAdd(2, 8, 16); }
      }
      Arith.DivModOf(a, b * 0x1_0000 + c * 0x100 + d, 0x100_0000);
      Arith.DivModOf(a * 16 + b / 16, (b % 16) * 0x1_0000 + c * 0x100 + d, 0x10_0000);
      Arith.DivModOf(a * 256 + b, c * 0x100 + d, 0x1_0000);
      assert v / 0x100_0000 == a;
      assert v / 0x10_0000 == a * 16 + b / 16;
      assert v / 0x1_0000 == a * 256 + b;
      Arith.DivModOf(a, b / 16, 16);
      Arith.DivModOf(172, 1, 16);
      assert b / 16 == 1 <==> 16 <= b <= 31;
    }
  }

  /** Only the first two octets of the IPv4 form decide the answer. */
  lemma FirstTwoOctetsDecide(ip: seq<byte>, ip': seq<byte>)
    requires To4(ip).Some? && To4(ip').Some?
    requires To4(ip).value[..2] == To4(ip').value[..2]
    ensures IsPrivateIp(ip) == IsPrivateIp(ip')
  {
    assert To4(ip).value[0] == To4(ip).value[..2][0];
    assert To4(ip).value[1] == To4(ip).value[..2][1];
    assert To4(ip').value[0] == To4(ip').value[..2][0];
    assert To4(ip').value[1] == To4(ip').value[..2][1];
  }

  /** The edges of 172.16.0.0/12 and of the other two blocks. */
  lemma Boundaries(c: byte, d: byte)
    ensures !IsPrivateIp([172, 15, c, d]) && IsPrivateIp([172, 16, c, d])
    ensures IsPrivateIp([172, 31, c, d]) && !IsPrivateIp([172, 32, c, d])
    ensures !IsPrivateIp([192, 169, c, d]) && !IsPrivateIp([11, 0, c, d])
  {
    PlainAddress(172, 15, c, d);
    PlainAddress(172, 16, c, d);
    PlainAddress(172, 31, c, d);
    PlainAddress(172, 32, c, d);
    PlainAddress(192, 169, c, d);
    PlainAddress(11, 0, c, d);
  }

  /** A 4-byte address is its own IPv4 form. */
  lemma PlainAddress(a: byte, b: byte, c: byte, d: byte)
    ensures To4([a, b, c, d]) == Some([a, b, c, d])
  {
  }

  /** An IPv4-mapped address is judged by its IPv4 part; an address with no
      IPv4 form is never private. */
  lemma MappedAndMalformed(c: byte, d: byte)
    ensures IsPrivateIp(Mapped + [10, 1, c, d])
    ensures !IsPrivateIp([10, 0, c])
    ensures !IsPrivateIp([1] + Mapped[1..] + [10, 0, c, d])
  {
    var x := Mapped + [10, 1, c, d];
    assert x[..12] == Mapped;
    assert x[12..16] == [10, 1, c, d];
    var y := [1] + Mapped[1..] + [10, 0, c, d];
    assert y[..12][0] == 1;
  }
}

=== FILE: readers.dfy ===
/** The reader decorators: the stateless all-zero reader, the cyclic
    `RepeatReader`, and `SkipReader`, which discards a fixed number of inner
    bytes before its first real read. */
module Readers {
  import opened Bytes
  import opened Io
  import Arith

  function Zeros(n: nat): (z: seq<byte>)
    ensures |z| == n && forall i :: 0 <= i < n ==> z[i] == 0
  {
    seq(n, _ => 0)
  }

  // ---------------------------------------------------------------- nullReader

  /** `nullReader.Read`: zero every byte of `out`; report all of them, no error.
      The reader has no state, so the outcome depends on `len(out)` alone. */
  method NullRead(out: seq<byte>) returns (buf: seq<byte>, n: int, err: Option<Error>)
    ensures buf == Zeros(|out|)
    ensures n == |out| && err == None
  {
    buf := out;
    for i := 0 to |out|
      invariant |buf| == |out|
      invariant forall j :: 0 <= j < i ==> buf[j] == 0
    {
      buf := buf[i := 0];
    }
    n, err := |out|, None;
  }

  // ---------------------------------------------------------------- RepeatReader

  /** `RepeatReader`: the data it cycles through and the position of the next byte. */
  datatype RepeatReader = RepeatReader(data: seq<byte>, i: int)

  /** `NewRepeatReader`: cycles through `data` from its first byte. */
  function NewRepeatReader(data: seq<byte>): (rr: RepeatReader)
    ensures rr.data == data && rr.i == 0
    ensures Positioned(rr)
  {
    RepeatReader(data, 0)
  }

  /** The position indexes the data (or is 0 when there is none). */
  predicate Positioned(rr: RepeatReader) {
    0 <= rr.i && (rr.i < |rr.data| || rr.i == 0)
  }

  /** The `len` bytes of the endless repetition of `data` starting at `start`. */
  function Cycle(data: seq<byte>, start: nat, len: nat): (c: seq<byte>)
    requires |data| > 0
    ensures |c| == len
  {
    seq(len, j requires 0 <= j => data[(start + j) % |data|])
  }

  /** `RepeatReader.Read`: fills `p` with the data cycled from the current
      position and always reports `len(p)` and no error. With no data a
      non-empty `p` indexes an empty slice, which panics. */
  method RepeatRead(rr: RepeatReader, p: seq<byte>) returns (res: ReadResult<RepeatReader>)
    requires Positioned(rr)
    requires |p| > 0 ==> |rr.data| > 0
    ensures res.n == |p| && res.err == None && |res.buf| == |p|
    ensures res.reader.data == rr.data && Positioned(res.reader)
    ensures |rr.data| > 0 ==> res.buf == Cycle(rr.data, rr.i, |p|)
    ensures |rr.data| > 0 ==> res.reader.i == (rr.i + |p|) % |rr.data|
    ensures |p| == 0 ==> res.reader == rr
  {
    if |p| == 0 {
      if |rr.data| > 0 {
        Arith.DivModOf(0, rr.i, |rr.data|);
      }
      return ReadResult(rr, p, 0, None);
    }
    var n := |rr.data|;
    var want := Cycle(rr.data, rr.i, |p|);
    var buf := p;
    var pos := rr.i;
    Arith.DivModOf(0, rr.i, n);
    for j := 0 to |p|
      invariant |buf| == |p|
      invariant 0 <= pos < n && pos == (rr.i + j) % n
      invariant forall k :: 0 <= k < j ==> buf[k] == want[k]
    {
      assert want[j] == rr.data[pos];
      Arith.ModSucc(rr.i + j, n);
      buf := buf[j := rr.data[pos]];
      pos := if pos + 1 == n then 0 else pos + 1;
    }
    res := ReadResult(RepeatReader(rr.data, pos), buf, |p|, None);
  }

  /** Two reads of `a` and then `b` bytes see the same stream as one read of
      `a + b` bytes. */
  lemma CycleSplits(data: seq<byte>, start: nat, a: nat, b: nat)
    requires |data| > 0
    ensures Cycle(data, start, a) + Cycle(data, (start + a) % |data|, b) == Cycle(data, start, a + b)
  {
    var n := |data|;
    var left, right, whole := Cycle(data, start, a), Cycle(data, (start + a) % n, b), Cycle(data, start, a + b);
    forall j | 0 <= j < b
      ensures right[j] == whole[a + j]
    {
      Arith.ModAddLeft(start + a, j, n);
      assert start + (a + j) == start + a + j;
    }
    assert left + right == whole;
  }

  // ---------------------------------------------------------------- SkipReader

  /** `SkipReader`: bytes still to discard, and the inner reader. */
  datatype SkipReader = SkipReader(off: int, r: Source)

  /** The size of the scratch buffer the skip loop reads into. */
  const SkipBufLen := 32 * 1024

  /** Whether discarding `o` bytes of `s` runs into the inner reader's error. */
  predicate SkipFails(s: Source, o: nat) {
    o > 0 && (|s.rest| < o || (|s.rest| == o && s.eagerEnd))
  }

  /** The skip loop of `SkipReader.Read`: reads and discards `o` inner bytes
      through scratch buffers of at most 32 KiB, stopping at the first inner
      error. Returns how many bytes were still to discard when it stopped. */
  method Discard(s: Source, o: nat) returns (left: nat, s': Source, err: Option<Error>)
    requires s.chunk > 0
    ensures err.Some? <==> SkipFails(s, o)
    ensures err.Some? ==> err == Some(s.end) && left == o - |s.rest| && s' == s.(rest := [])
    ensures err.None? ==> left == 0 && o <= |s.rest| && s' == s.(rest := s.rest[o..])
  {
    left, s', err := o, s, None;
    while left > 0
      invariant left <= o <= left + |s.rest|
      invariant s' == s.(rest := s.rest[o - left..])
      invariant left < o && |s'.rest| == 0 ==> !s.eagerEnd
      decreases left
    {
      var rr := SourceRead(s', Zeros(Min(left, SkipBufLen)));
      assert rr.reader.rest == s.rest[o - left + rr.n..];
      left := left - rr.n;
      s' := rr.reader;
      if rr.err.Some? {
        assert |s'.rest| == 0;
        return left, s', rr.err;
      }
    }
  }

  /** `SkipReader.Read`. An empty `p` returns at once. Otherwise the pending
      bytes are discarded first; if the inner reader fails meanwhile, the call
      returns `(0, err)` and keeps the part of the skip still outstanding.
      Once nothing is pending the call is an ordinary inner read. */
  method SkipRead(sr: SkipReader, p: seq<byte>) returns (res: ReadResult<SkipReader>)
    requires sr.r.chunk > 0
    ensures |p| == 0 ==> res == ReadResult(sr, p, 0, None)
    ensures |p| > 0 && SkipFails(sr.r, Pending(sr.off)) ==>
      && res.n == 0 && res.buf == p && res.err == Some(sr.r.end)
      && res.reader == SkipReader(Pending(sr.off) - |sr.r.rest|, sr.r.(rest := []))
    ensures |p| > 0 && !SkipFails(sr.r, Pending(sr.off)) ==>
      && Pending(sr.off) <= |sr.r.rest|
      && var inner := SourceRead(sr.r.(rest := sr.r.rest[Pending(sr.off)..]), p);
         res == ReadResult(SkipReader(sr.off - Pending(sr.off), inner.reader), inner.buf, inner.n, inner.err)
  {
    if |p| == 0 {
      return ReadResult(sr, p, 0, None);
    }
    var o := Pending(sr.off);
    var left, src, err := Discard(sr.r, o);
    if err.Some? {
      return ReadResult(SkipReader(left, src), p, 0, err);
    }
    var rr := SourceRead(src, p);
    res := ReadResult(SkipReader(sr.off - o, rr.reader), rr.buf, rr.n, rr.err);
  }
}

=== FILE: unique.dfy ===
/** `IsUnique`: whether a variadic list of comparable keys has no repeats,
    found with one pass over the keys and a hash set of those seen so far. */
module Unique {

  /** No value occurs twice. */
  ghost predicate Distinct<T>(s: seq<T>) {
    forall i, j :: 0 <= i < j < |s| ==> s[i] != s[j]
  }

  function Elems<T>(s: seq<T>): set<T> {
    set x | x in s
  }

  method IsUnique<T(==)>(keys: seq<T>) returns (r: bool)
    ensures r <==> Distinct(keys)
    ensures |keys| <= 1 ==> r
  {
    var seen: set<T> := {};
    for i := 0 to |keys|
      invariant seen == Elems(keys[..i])
      invariant Distinct(keys[..i])
    {
      if keys[i] in seen {
        assert keys[i] in keys[..i];
        return false;
      }
      seen := seen + {keys[i]};
      assert keys[..i + 1] == keys[..i] + [keys[i]];
    }
    assert keys[..|keys|] == keys;
    return true;
  }

  /** The index at which `IsUnique` stops: the first key already seen before it. */
  function FirstRepeat<T(==)>(keys: seq<T>): (r: nat)
    ensures r <= |keys|
    ensures Distinct(keys[..r])
    ensures r < |keys| ==> keys[r] in keys[..r]
    decreases |keys|
  {
    if |keys| == 0 then 0
    else
      var n := |keys| - 1;
      var r0 := FirstRepeat(keys[..n]);
      assert keys[..n][..r0] == keys[..r0];
      if r0 < n then r0
      else if keys[n] in keys[..n] then n
      else (assert keys[..n + 1] == keys; n + 1)
  }

  /** Distinctness is exactly "as many distinct values as positions". */
  lemma {:induction false} DistinctIffSetSize<T>(s: seq<T>)
    ensures Distinct(s) <==> |Elems(s)| == |s|
    decreases |s|
  {
    if |s| > 0 {
      var t := s[..|s| - 1];
      var x := s[|s| - 1];
      assert s == t + [x];
      DistinctIffSetSize(t);
      ElemsBound(t);
      assert Elems(s) == Elems(t) + {x};
      if x in Elems(t) {
        var j :| 0 <= j < |t| && t[j] == x;
        assert s[j] == s[|s| - 1];
      } else {
        assert Distinct(s) <==> Distinct(t);
      }
    }
  }

  lemma {:induction false} ElemsBound<T>(s: seq<T>)
    ensures |Elems(s)| <= |s|
    decreases |s|
  {
    if |s| > 0 {
      var t := s[..|s| - 1];
      assert s == t + [s[|s| - 1]];
      assert Elems(s) == Elems(t) + {s[|s| - 1]};
      ElemsBound(t);
    }
  }

  /** Keys are unique exactly when the scan runs to the end without stopping. */
  lemma DistinctIffNoRepeat<T>(keys: seq<T>)
    ensures Distinct(keys) <==> FirstRepeat(keys) == |keys|
  {
    var r := FirstRepeat(keys);
    if r == |keys| {
      assert keys[..r] == keys;
    } else {
      var j :| 0 <= j < r && keys[..r][j] == keys[r];
    }
  }
}

=== FILE: unwrap.dfy ===
/** `UnwrapReader` and `UnwrapWriter`: peel decorator layers off a stream
    until what remains does not offer an `Unwrap` method. A stream is a stack
    of layers over a plain stream `R`/`W` (any reader or writer that is not a
    decorator, such as `nullReader` or `RepeatReader`). */
module Unwrap {

  /** The reader decorators that implement `UnwrapReader`. */
  datatype ReaderStack<R> =
    | PlainReader(r: R)
    | SpeedLayer(rate: int, inner: ReaderStack<R>)
    | SkipReaderLayer(off: int, inner: ReaderStack<R>)
  {
    predicate IsWrapper() { !PlainReader? }

    /** The plain reader at the bottom of the stack. */
    function Bottom(): R {
      match this
      case PlainReader(r) => r
      case SpeedLayer(_, inner) => inner.Bottom()
      case SkipReaderLayer(_, inner) => inner.Bottom()
    }

    /** How many decorator layers sit above the plain reader. */
    function Depth(): nat {
      match this
      case PlainReader(_) => 0
      case SpeedLayer(_, inner) => 1 + inner.Depth()
      case SkipReaderLayer(_, inner) => 1 + inner.Depth()
    }
  }

  /** The writer decorators that implement `UnwrapWriter`. */
  datatype WriterStack<W> =
    | PlainWriter(w: W)
    | SkipWriterLayer(skipN: int, inner: WriterStack<W>)
    | LimitLayer(n: int, inner: WriterStack<W>)
    | BufferLayer(bufLen: int, inner: WriterStack<W>)
  {
    predicate IsWrapper() { !PlainWriter? }

    function Bottom(): W {
      match this
      case PlainWriter(w) => w
      case SkipWriterLayer(_, inner) => inner.Bottom()
      case LimitLayer(_, inner) => inner.Bottom()
      case BufferLayer(_, inner) => inner.Bottom()
    }
  }

  /** `UnwrapReader`: loop while the value is a wrapper, replacing it by the
      reader it wraps. Ends at the plain reader, after one step per layer. */
  method UnwrapReader<R>(r: ReaderStack<R>) returns (u: ReaderStack<R>, steps: nat)
    ensures !u.IsWrapper()
    ensures u == PlainReader(r.Bottom())
    ensures steps == r.Depth()
  {
    u, steps := r, 0;
    while u.IsWrapper()
      invariant u.Bottom() == r.Bottom()
      invariant steps + u.Depth() == r.Depth()
      decreases u
    {
      u, steps := u.inner, steps + 1;
    }
  }

  /** `UnwrapWriter`: the same loop over writer layers. */
  method UnwrapWriter<W>(w: WriterStack<W>) returns (u: WriterStack<W>)
    ensures !u.IsWrapper()
    ensures u == PlainWriter(w.Bottom())
  {
    u := w;
    while u.IsWrapper()
      invariant u.Bottom() == w.Bottom()
      decreases u
    {
      u := u.inner;
    }
  }
}

=== FILE: writers.dfy ===
/** The writer decorators: `SkipWriter` swallows a fixed number of leading
    bytes, `LimitWriter` forwards at most a fixed number of bytes in total. */
module Writers {
  import opened Bytes
  import opened Io

  // ---------------------------------------------------------------- SkipWriter

  /** `SkipWriter`: bytes still to swallow, and the inner writer. */
  datatype SkipWriter = SkipWriter(skipN: int, w: Sink)

  /** `x` without its first `k` bytes (nothing left when `k` covers it all). */
  function Drop(x: seq<byte>, k: nat): (d: seq<byte>)
    ensures |d| == if k >= |x| then 0 else |x| - k
  {
    if k >= |x| then [] else x[k..]
  }

  /** `SkipWriter.Write`. While the pending skip covers all of `p`, the
      inner writer is not called and `p` counts as written. Otherwise the rest
      of `p` past the skip goes to the inner writer; an inner failure that
      wrote nothing is returned as `(0, err)` with the skip kept, and any
      other outcome reports the inner count plus the skipped bytes and clears
      the skip. */
  function SkipWrite(sw: SkipWriter, p: seq<byte>): (r: WriteResult<SkipWriter>)
    ensures sw.skipN > 0 && sw.skipN >= |p| ==>
      r == WriteResult(SkipWriter(sw.skipN - |p|, sw.w), |p|, None)
    ensures sw.w.out <= r.writer.w.out && r.writer.w.out[|sw.w.out|..] <= Drop(p, Pending(sw.skipN))
    ensures r.err.None? && sw.skipN >= 0 ==> r.n == |p|
    ensures r.err.None? ==> r.writer.skipN == (if sw.skipN > |p| then sw.skipN - |p| else 0)
    ensures r.err.Some? ==> r.err.value == sw.w.full && r.n <= |p|
    ensures r.err.Some? && r.n == 0 && sw.skipN >= 0 ==> r.writer == sw
    ensures r.err.None? && sw.skipN >= 0 ==> r.writer.w.out == sw.w.out + Drop(p, sw.skipN)
    ensures r.err.Some? && r.n > 0 && sw.skipN >= 0 ==>
      r.n == |r.writer.w.out| - |sw.w.out| + sw.skipN && r.writer.skipN == 0
    ensures !(sw.skipN > 0 && sw.skipN >= |p|) ==>
      var ir := SinkWrite(sw.w, Drop(p, Pending(sw.skipN)));
      && r.writer.w == ir.writer && (r.err.None? <==> ir.err.None?)
      && (ir.err.Some? && ir.n == 0 ==> r.n == 0 && r.writer.skipN == sw.skipN)
      && (!(ir.err.Some? && ir.n == 0) ==> r.n == ir.n + sw.skipN && r.writer.skipN == 0)
    ensures sw.skipN < 0 && r.err.None? ==> r.n == |p| + sw.skipN
  {
    if sw.skipN > 0 && sw.skipN >= |p| then
      WriteResult(SkipWriter(sw.skipN - |p|, sw.w), |p|, None)
    else
      var q := if sw.skipN > 0 then p[sw.skipN..] else p;
      assert q == Drop(p, Pending(sw.skipN));
      var ir := SinkWrite(sw.w, q);
      if ir.err.Some? && ir.n == 0 then
        WriteResult(SkipWriter(sw.skipN, ir.writer), 0, ir.err)
      else
        WriteResult(SkipWriter(0, ir.writer), ir.n + sw.skipN, ir.err)
  }

  /** With room enough, two writes through a skip writer deliver the same
      bytes as skipping over their concatenation. */
  lemma SkipWritesCompose(sw: SkipWriter, a: seq<byte>, b: seq<byte>)
    requires sw.skipN >= 0 && sw.w.room >= |a| + |b|
    ensures var r1 := SkipWrite(sw, a);
            var r2 := SkipWrite(r1.writer, b);
            && r1.err.None? && r2.err.None? && r1.n == |a| && r2.n == |b|
            && r2.writer.w.out == sw.w.out + Drop(a + b, sw.skipN)
  {
    var r1 := SkipWrite(sw, a);
    assert r1.writer.w.out == sw.w.out + Drop(a, sw.skipN);
    var r2 := SkipWrite(r1.writer, b);
    assert r2.writer.w.out == r1.writer.w.out + Drop(b, r1.writer.skipN);
    if sw.skipN < |a| {
      assert Drop(a + b, sw.skipN) == Drop(a, sw.skipN) + b;
    } else {
      assert Drop(a + b, sw.skipN) == Drop(b, sw.skipN - |a|);
    }
  }

  /** A negative skip is never checked: nothing is swallowed, but the count
      the write reports is lowered by it. */
  lemma NegativeSkipLowersCount(w: Sink)
    requires w.room >= 3
    ensures SkipWrite(SkipWriter(-5, w), [1, 2, 3]) == WriteResult(SkipWriter(0, w.(out := w.out + [1, 2, 3], room := w.room - 3)), -2, None)
  {
    assert [1, 2, 3][..3] == [1, 2, 3];
  }

  // ---------------------------------------------------------------- LimitWriter

  /** `LimitWriter`: the inner writer, the bytes it may still receive, and the
      error reported once they are used up. */
  datatype LimitWriter = LimitWriter(w: Sink, n: int, endSymbol: Error)

  /** `NewLimitWriter`: a missing end error defaults to `io.ErrShortWrite`. */
  function NewLimitWriter(w: Sink, limit: int, endSymbol: Option<Error>): (lw: LimitWriter)
    ensures lw.w == w && lw.n == limit
    ensures endSymbol.None? ==> lw.endSymbol == ErrShortWrite
    ensures endSymbol.Some? ==> lw.endSymbol == endSymbol.value
  {
    LimitWriter(w, limit, if endSymbol.None? then ErrShortWrite else endSymbol.value)
  }

  /** `LimitWriter.Write`. With nothing left it returns `(0, endSymbol)`
      without writing; otherwise it forwards at most the remaining bytes and
      subtracts what the inner writer took. A write that uses up the limit
      without an inner error reports `endSymbol`. A negative limit is not
      supported: Go's `LimitWriter.Write` slices `p[:n]` with it, which panics. */
  function LimitWrite(lw: LimitWriter, p: seq<byte>): (r: WriteResult<LimitWriter>)
    requires lw.n >= 0
    ensures lw.n == 0 ==> r == WriteResult(lw, 0, Some(lw.endSymbol))
    ensures 0 <= r.n <= |p| && r.n <= lw.n
    ensures r.writer.w.out == lw.w.out + p[..r.n]
    ensures r.writer.n == lw.n - r.n && r.writer.endSymbol == lw.endSymbol
    ensures lw.n > 0 && r.writer.n == 0 && r.n == lw.n ==> r.err == Some(lw.endSymbol)
    ensures lw.n > 0 && r.writer.n > 0 && r.err.Some? ==> r.err.value == lw.w.full && r.n < |p|
    ensures r.err.None? ==> r.n == |p|
    ensures lw.n > 0 ==> r.n == Min(Min(|p|, lw.n), lw.w.room)
  {
    if lw.n == 0 then
      WriteResult(lw, 0, Some(lw.endSymbol))
    else
      var q := if lw.n < |p| then p[..lw.n] else p;
      var ir := SinkWrite(lw.w, q);
      assert q[..ir.n] == p[..ir.n];
      var lw' := LimitWriter(ir.writer, lw.n - ir.n, lw.endSymbol);
      if ir.err.None? && lw'.n == 0 then WriteResult(lw', ir.n, Some(lw.endSymbol))
      else WriteResult(lw', ir.n, ir.err)
  }

  /** A sequence of writes, stopping at the first one that fails. */
  function WriteAll(lw: LimitWriter, ps: seq<seq<byte>>): (r: LimitWriter)
    requires lw.n >= 0
    ensures r.n >= 0
    decreases |ps|
  {
    if |ps| == 0 then lw
    else
      var r := LimitWrite(lw, ps[0]);
      if r.err.Some? then r.writer else WriteAll(r.writer, ps[1..])
  }

  /** However the writes are split, the inner writer never receives more than
      the limit: forwarded bytes plus remaining allowance stay equal to it. */
  lemma {:induction false} LimitNeverExceeded(lw: LimitWriter, ps: seq<seq<byte>>)
    requires lw.n >= 0
    ensures |WriteAll(lw, ps).w.out| - |lw.w.out| + WriteAll(lw, ps).n == lw.n
    ensures |WriteAll(lw, ps).w.out| <= |lw.w.out| + lw.n
    ensures lw.w.out <= WriteAll(lw, ps).w.out
    decreases |ps|
  {
    if |ps| > 0 {
      var r := LimitWrite(lw, ps[0]);
      if r.err.None? {
        LimitNeverExceeded(r.writer, ps[1..]);
        var f := WriteAll(r.writer, ps[1..]);
        assert lw.w.out <= r.writer.w.out <= f.w.out;
      }
    }
  }
}
